=== FILE: README.md ===
# MyBatis token parsing and generated-key binding, in Dafny

This project models two small pieces of MyBatis 3 and proves properties of them.

- **`GenericTokenParser.parse`** is the scanner behind `${...}` and `#{...}` placeholders.
  It copies a text and replaces every `open content close` token with what a handler
  makes of `content`. An open delimiter directly after a backslash is escaped: the
  backslash is dropped and the delimiter is kept as text. An open delimiter with no
  close after it is copied unchanged. The model has two layers:
  - a pure two-stage definition: `Split` cuts the text into pieces and `Render` assembles
    the output;
  - the offset loop of the Java method (`Parse`, `ScanLoop`, `ScanOne`, `ScanToken`),
    proved to compute exactly that definition.

  `String.indexOf` is modelled by `Text.IndexOf` as the least occurrence at or after the
  starting index.
- **`Jdbc3KeyGenerator`** copies the keys a database generated for an insert, or for a
  batch of inserts, back into the parameter objects.
  - The generated-keys `ResultSet` becomes a value: the outcome of reading its metadata,
    and the outcomes of successive `next()` calls.
  - A parameter object becomes a `Target`: a bean with fixed setters, or a map.
  - The type-handler registry becomes a finite map.
  - What a type handler's `getResult` does with a column value is the parameter `convert`.
  - Mutation in place becomes returning the updated parameters, one value per list entry.
    This matches Java only when the entries are distinct objects (see "Left out").
  - The result also carries the `ExecutorException` thrown, if any, and how many times
    `next()` and `close()` were called.

Java exceptions become values. The scanner's `IndexOutOfBoundsException` is
`Failure(NegativeLength(n))`. The key generator's exception is
`Some(ExecutorException(cause))` next to the parameters, because bindings made before a
failure stay in place.

Three behaviours of the code are easy to misread, and the model keeps them as written:

- **Where `close` is searched for.** `parse` searches for `close` from the open delimiter
  itself, not from its end (GenericTokenParser.java line 57). See the finding below.
- **An empty key-property list.** It passes the guard at Jdbc3KeyGenerator.java line 68,
  which only tests for `null` and for too few columns. `next()` is then still called, once
  per parameter while rows remain plus once more if the rows run out first: that is
  min(parameters, rows + 1) calls. No property is written.
- **A null cursor.** When `getGeneratedKeys()` returns null, `getMetaData()` at line 66
  throws a `NullPointerException`. It is caught at line 84 and rethrown as an
  `ExecutorException`, and nothing is closed. The model covers this case as
  `Statement(Failure(NoCursor))`.

## Model

| member | source | states |
|---|---|---|
| `Text.IndexOf` | src/main/java/org/apache/ibatis/parsing/GenericTokenParser.java:45 | The result is -1 exactly when `pat` does not occur at or after `from`. Otherwise it is the least such occurrence. |
| `Text.IndexOfLater` | src/main/java/org/apache/ibatis/parsing/GenericTokenParser.java:57 | Starting a search later finds the same occurrence, as long as the start does not pass it. |
| `TokenScanner.NextStep` | src/main/java/org/apache/ibatis/parsing/GenericTokenParser.java:48-58 | Classifies the next `open` at or after `offset`: none, escaped, unterminated, or matched. Escaped means a backslash is right before it. Matched means `end` is the first `close` found searching from the start of `open`. |
| `TokenScanner.Advance` | src/main/java/org/apache/ibatis/parsing/GenericTokenParser.java:48-75 | Every pass that emits moves the offset strictly forward and stays within the text, so the loop terminates. |
| `TokenScanner.Parse` | src/main/java/org/apache/ibatis/parsing/GenericTokenParser.java:40-81 | The output is the rendering of the pieces. A null or empty text gives "". A text without `open` is returned unchanged. With well-formed delimiters, parsing never throws. |
| `TokenScanner.ScanLoop` | src/main/java/org/apache/ibatis/parsing/GenericTokenParser.java:44-78 | The offset loop builds exactly the rendering of `Split`. The loop keeps the invariant that the pieces done so far followed by the split of the rest are the split of the whole text. |
| `TokenScanner.ScanOne` | src/main/java/org/apache/ibatis/parsing/GenericTokenParser.java:50-55 | One loop pass appends the rendering of that pass's pieces and resumes where the pass says. For an escaped `open`, it appends the text before the backslash, then `open`. It fails when the copy length `start - offset - 1` is negative. |
| `TokenScanner.ScanToken` | src/main/java/org/apache/ibatis/parsing/GenericTokenParser.java:57-71 | An unescaped `open` without a `close` copies the rest of the text. Otherwise the pass appends the prefix, then `handler(content)`, and resumes after `close`. It fails when the content length is negative. |
| `TokenScanner.CloseStartsAfterOpen` | src/main/java/org/apache/ibatis/parsing/GenericTokenParser.java:57-66 | With well-formed delimiters, the first `close` found from an `open` lies after it, so the content length is not negative. |
| `TokenScanner.SplitSucceeds` | src/main/java/org/apache/ibatis/parsing/GenericTokenParser.java:48-75 | With well-formed delimiters (non-empty, neither ending in a backslash, `close` unable to start inside `open`), the scan never throws. |
| `TokenScanner.RenderDependsOnlyOnTokens` | src/main/java/org/apache/ibatis/parsing/GenericTokenParser.java:69 | The handler is applied to token contents only. Two handlers that agree on those give the same output. |
| `TokenScannerProperties.SplitShape` | src/main/java/org/apache/ibatis/parsing/GenericTokenParser.java:48-78 | The pieces of a successful scan cover the text from the offset to its end, side by side and in order. Each piece is what the text holds at that place. No `open` starts inside copied text, except the rest of the text after an unterminated `open`. An `open` that begins inside a `close` or inside an escaped `open` is passed over, as in the Java, which resumes after each delimiter (`OpenInsideCloseIsPassedOver`). |
| `TokenScannerProperties.TokensInTextOrder` | src/main/java/org/apache/ibatis/parsing/GenericTokenParser.java:69 | The handler sees token contents left to right: an earlier token's content ends before a later one's begins. |
| `TokenScannerProperties.TokenFacts` | src/main/java/org/apache/ibatis/parsing/GenericTokenParser.java:57-70 | Every token is an unescaped `open`, its content, and a `close`. That `close` is the first one at or after the start of `open`, so tokens do not nest. |
| `TokenScannerProperties.EscapeFacts` | src/main/java/org/apache/ibatis/parsing/GenericTokenParser.java:50-55 | Every escaped delimiter stands right after a backslash. An `open` at index 0 is therefore never escaped. |
| `TokenScannerProperties.UnterminatedCopiesRest` | src/main/java/org/apache/ibatis/parsing/GenericTokenParser.java:58-60 | An `open` with no `close` after it copies the rest of the text verbatim, and the scan stops. |
| `TokenScannerExamples.EscapedDelimiterIsKept` | src/main/java/org/apache/ibatis/parsing/GenericTokenParser.java:50-55 | `a\${b}c` renders as `a${b}c`. |
| `TokenScannerExamples.DoubleBackslashStillEscapes` | src/main/java/org/apache/ibatis/parsing/GenericTokenParser.java:50 | Only one preceding character is inspected: `\\${a}` renders as `\${a}`. |
| `TokenScannerExamples.FirstCloseEndsToken` | src/main/java/org/apache/ibatis/parsing/GenericTokenParser.java:57-70 | `${a${b}c}` gives the handler `a${b` and copies `c}`. |
| `TokenScannerExamples.UnterminatedIsCopied` | src/main/java/org/apache/ibatis/parsing/GenericTokenParser.java:58-60 | `x${y` renders unchanged. |
| `TokenScannerExamples.HandlerOutputNotRescanned` | src/main/java/org/apache/ibatis/parsing/GenericTokenParser.java:69-74 | The handler's output is copied, not scanned again: with a handler mapping `a` to `${b}` and `b` to `X`, `${a}` gives `${b}`, not `X`. |
| `TokenScannerExamples.OpenInsideCloseIsPassedOver` | src/main/java/org/apache/ibatis/parsing/GenericTokenParser.java:57-74 | With `$` and `}$` on `$a}$b}$`, the `$` at index 3 lies inside the first `close`. The scan resumes after that `close`, so it is neither a token nor an escape and is copied as text. |
| `TokenScannerFix.NextStepFixed` | src/main/java/org/apache/ibatis/parsing/GenericTokenParser.java:57 | Like `NextStep`, but `close` is searched from the end of `open`, so a token's content never has negative length. |
| `TokenScannerFix.SplitFixedSucceeds` | src/main/java/org/apache/ibatis/parsing/GenericTokenParser.java:57-66 | The corrected scan never throws unless a delimiter ends in a backslash. No condition relates `close` to `open`. |
| `TokenScannerFix.FixedAgreesWhenSourceSucceeds` | src/main/java/org/apache/ibatis/parsing/GenericTokenParser.java:48-75 | Wherever the code as written succeeds, the correction gives the same pieces. |
| `TokenScannerFix.OverlappingCloseFails` | src/main/java/org/apache/ibatis/parsing/GenericTokenParser.java:57-66 | With `<%` and `%>`, the text `<%>` makes the code as written fail with length -1. The corrected scan copies it. |
| `TokenScannerFix.SameDelimiterFails` | src/main/java/org/apache/ibatis/parsing/GenericTokenParser.java:57-66 | With `$` as both delimiters, `$a$` makes the code as written fail with length -1. The corrected scan finds the token `a`. |
| `Jdbc3KeyGenerator.ProcessBefore` | src/main/java/org/apache/ibatis/executor/keygen/Jdbc3KeyGenerator.java:43-45 | Does nothing: the parameter is unchanged, there is no error, and the cursor is neither read nor closed. |
| `Jdbc3KeyGenerator.ProcessAfter` | src/main/java/org/apache/ibatis/executor/keygen/Jdbc3KeyGenerator.java:48-52 | The batch of the one parameter: one parameter comes back, and an opened cursor is closed once. |
| `Jdbc3KeyGenerator.ProcessBatch` | src/main/java/org/apache/ibatis/executor/keygen/Jdbc3KeyGenerator.java:55-95 | Failures are wrapped in one `ExecutorException` carrying the cause. An opened cursor is closed exactly once. If `getGeneratedKeys` fails, nothing is closed. If `getMetaData` fails, or `getColumnCount` fails while key properties are set, no row is read and the cursor is closed. If the key properties are null or there are too few columns, no row is read and nothing changes. |
| `Jdbc3KeyGenerator.GetTypeHandlers` | src/main/java/org/apache/ibatis/executor/keygen/Jdbc3KeyGenerator.java:97-107 | There is one slot per key property. A slot is filled exactly when the target has a setter and the registry has a handler for its type, and then holds that handler. |
| `Jdbc3KeyGenerator.SetValue` | src/main/java/org/apache/ibatis/executor/keygen/Jdbc3KeyGenerator.java:115 | Succeeds exactly when the target has a setter for the property. Only that property changes, and the setters stay the same. |
| `Jdbc3KeyGenerator.PopulateKeys` | src/main/java/org/apache/ibatis/executor/keygen/Jdbc3KeyGenerator.java:109-118 | Only properties named by filled slots change, even part-way through a failure. It succeeds exactly when every filled slot's column can be read and written. |
| `Jdbc3KeyGenerator.PopulateSucceeds` | src/main/java/org/apache/ibatis/executor/keygen/Jdbc3KeyGenerator.java:109-118 | The loop from slot `i` completes exactly when every filled slot from `i` on can be read and written. |
| `KeyGeneratorProperties.BindFromShape` | src/main/java/org/apache/ibatis/executor/keygen/Jdbc3KeyGenerator.java:69-82 | About `Jdbc3KeyGenerator.BindFrom`, the model of the `for` loop: Parameter `j` is bound from row `j` with the same slots. The loop stops without error when `next()` finds no row. Parameters after the last pass are untouched. A failure keeps earlier bindings. |
| `KeyGeneratorProperties.BatchShape` | src/main/java/org/apache/ibatis/executor/keygen/Jdbc3KeyGenerator.java:55-95 | About `Jdbc3KeyGenerator.BatchBody`, the model of the `try` body at lines 59-83, as `ProcessBatch` runs it: Once the guard passes, each parameter is bound from its own row, with the handlers resolved from the first parameter. `next()` is called min(parameters, rows + 1) times when nothing fails. The exception carries the failing step's cause. |
| `KeyGeneratorProperties.ResolvedFromFirstParameter` | src/main/java/org/apache/ibatis/executor/keygen/Jdbc3KeyGenerator.java:75-78 | Resolving lazily on the first pass is the same as resolving once from the first parameter up front. |
| `KeyGeneratorProperties.ProcessAfterShape` | src/main/java/org/apache/ibatis/executor/keygen/Jdbc3KeyGenerator.java:48-52 | Once the guard passes, the single parameter is bound from the first row, if there is one, and `next()` is called once. |
| `KeyGeneratorProperties.CloseFailureIgnored` | src/main/java/org/apache/ibatis/executor/keygen/Jdbc3KeyGenerator.java:86-93 | Whether `close()` throws does not change the outcome. |
| `KeyGeneratorProperties.PopulateWritesColumns` | src/main/java/org/apache/ibatis/executor/keygen/Jdbc3KeyGenerator.java:110-116 | With distinct property names, a completed `populateKeys` leaves in `keyProperties[i]` what slot `i`'s handler read from column `i + 1`. |
| `KeyGeneratorProperties.EmptySlotSkippedForBatch` | src/main/java/org/apache/ibatis/executor/keygen/Jdbc3KeyGenerator.java:97-112 | A property whose slot is empty for the first parameter keeps its value on every parameter of the batch. |
| `KeyGeneratorProperties.EmptyBatch` | src/main/java/org/apache/ibatis/executor/keygen/Jdbc3KeyGenerator.java:69 | An empty batch reads no row. |
| `KeyGeneratorExamples.TwoRowsBindInOrder` | src/main/java/org/apache/ibatis/executor/keygen/Jdbc3KeyGenerator.java:69-82 | Two rows and two beans: the first gets key 1 and the second key 2. `next()` is called twice and `close()` once. |
| `KeyGeneratorExamples.ShortCursorLeavesRest` | src/main/java/org/apache/ibatis/executor/keygen/Jdbc3KeyGenerator.java:69-73 | Three beans and two rows: the third bean is unchanged and there is no error. |
| `KeyGeneratorExamples.FirstParameterDecidesSlots` | src/main/java/org/apache/ibatis/executor/keygen/Jdbc3KeyGenerator.java:75-78 | The first bean has no `id` setter, so a map that would accept `id` is not written either. |
| `KeyGeneratorExamples.FailureKeepsEarlierKeys` | src/main/java/org/apache/ibatis/executor/keygen/Jdbc3KeyGenerator.java:69-93 | `next()` fails on the second row. The first bean keeps its key, one wrapped exception carries the cause, and the cursor is closed once. |
| `KeyGeneratorExamples.LaterParameterWithoutSetterFails` | src/main/java/org/apache/ibatis/executor/keygen/Jdbc3KeyGenerator.java:74-85 | The slots come from a map. A later bean without the setter makes `setValue` fail, and the map keeps its new key. |
| `KeyGeneratorExamples.TooFewColumnsIsNoOp` | src/main/java/org/apache/ibatis/executor/keygen/Jdbc3KeyGenerator.java:68 | Two key properties and one column: no row is read and nothing changes. |

## Left out

- `TokenScanner.Parse` requires a non-empty open delimiter. With an empty one, `indexOf` keeps returning the offset, and the Java loop either never ends or throws.
- The handler is a pure function of the token content. A `TokenHandler` with side effects is not modelled. The order in which the handler sees contents is stated by `TokensInTextOrder`.
- Java's `IndexOutOfBoundsException` in the scanner is the value `NegativeLength(n)`. The exception type and message are not modelled.
- `MetaObject`, `BeanWrapper` and `MapWrapper` are not part of this model. Their behaviour is assumed as follows:
  - a bean has a setter exactly for its declared setter types;
  - a map has a setter for every key;
  - a map's setter type is the type of the value it holds, or `java.lang.Object` when it holds none;
  - `setValue` on a bean without that setter fails;
  - `setValue` succeeds whenever a setter exists, whatever the type of the value. A Java setter given a value of the wrong type, or null for a primitive, would throw, and line 85 would wrap that failure. The model does not produce that failure.
  A null parameter object is represented as a bean without setters.
- `TypeHandler.getResult` is the parameter `convert`. Each concrete handler's conversion, and which SQL types it accepts, is not part of this model.
- `Jdbc3KeyGenerator.ProcessAfter`: its contract states only the count of parameters and of `close()` calls. The binding itself is stated by `ProcessAfterShape`.
- `Jdbc3KeyGenerator.ProcessBatch`: its contract covers the guard and every failure before binding: `getGeneratedKeys`, `getMetaData` and `getColumnCount`. The binding itself is stated by `BatchShape`.
- `Jdbc3KeyGenerator.ProcessBatch`: the parameters are assumed to be distinct objects. Java writes through each entry into the object itself, so an object that occurs twice in the list, such as one bean reused for several inserts, ends with the keys of its last row, and every entry shows them. The model binds each entry as a separate value, so entry `j` holds row `j`'s keys. Aliasing between entries is not modelled.
- The message text of the `ExecutorException`, and the unused `Executor` argument.
- Concurrency, the JDBC connection and statement execution.
- Java's `char` is a UTF-16 code unit, while a Dafny `char` is a Unicode scalar value. For text with supplementary characters the indices differ, and a lone surrogate cannot be represented. For well-formed text the output is the same, since the scanner's only single-character test is against `\`.

## Findings

| source | as written | input that shows it | evidently intended | confidence | as-written member | corrected member |
|---|---|---|---|---|---|---|
| src/main/java/org/apache/ibatis/parsing/GenericTokenParser.java:57 | `close` is searched from `start`, the position of the open delimiter, and the content length `end - (start + openToken.length())` at line 66 can be negative | `open` = `close` = `$` on the text `$a$`: `end` = 0 and the length is -1, so `new String` throws; likewise `<%`/`%>` on `<%>` | search for `close` from `start + openToken.length()`, so `$a$` gives the handler `a` | not executed | `TokenScannerFix.SameDelimiterFails` | `TokenScannerFix.SplitFixedSucceeds` |

The corrected scan is `TokenScannerFix.SplitFixed`. `TokenScannerFix.FixedAgreesWhenSourceSucceeds` proves that it gives the same pieces as the code wherever the code succeeds. The two can only differ where the code throws, so `TokenScanner.Parse` and the other lemmas keep the code as written. With MyBatis's own delimiters (`${`, `#{`, `}`) the two are identical: `TokenScannerExamples.MyBatisDelimitersWellFormed` proves both pairs well formed, so `SplitSucceeds` and `FixedAgreesWhenSourceSucceeds` apply.

=== FILE: key_generator.dfy ===
/** `Jdbc3KeyGenerator`: copies the keys a database generated for a batch of inserts back
    into the inserted parameter objects.

    JDBC and reflection are replaced by values. The generated-keys `ResultSet` is a column
    count plus the outcomes of successive `next()` calls; a parameter object is a `Target`
    whose property access stands for `MetaObject`; the `TypeHandlerRegistry` is a finite map
    from Java types to type handlers; and what a type handler's `getResult` makes of a column
    value is the parameter `convert`. Java's in-place mutation is modelled by returning the
    updated targets, together with the failure, if any, and the cursor calls made. */
module Jdbc3KeyGenerator {
  import opened Results

  type PropertyName = string
  type JavaType = string

  /** `Object.class`, the setter type a map reports for a key that holds no value. */
  const ObjectType: JavaType := "java.lang.Object"

  /** A column or property value. */
  datatype Value = Null | Datum(javaType: JavaType, text: string)

  /** A type handler, named by the Java type it produces. */
  datatype TypeHandler = TypeHandler(javaType: JavaType)

  type Registry = map<JavaType, TypeHandler>

  /** The converter slots: one per key property, empty where nothing is written. */
  type Slots = seq<Option<TypeHandler>>

  /** Why a step failed; every one surfaces wrapped in an `ExecutorException`. */
  datatype Cause =
    | SqlFailure(reason: string)                  // an SQLException raised by the driver
    | NoCursor                                    // getGeneratedKeys() gave null: getMetaData() throws a NullPointerException
    | ColumnOutOfRange(column: nat)               // getResult on a column the row does not have
    | NoWritableProperty(property: PropertyName)  // setValue on a property without a setter

  datatype ExecutorException = ExecutorException(cause: Cause)

  /** What `getResult` makes of a column value. */
  type Converter = (TypeHandler, Value) -> Result<Value, Cause>

  datatype Row = Row(columns: seq<Value>)

  /** The outcome of one call of `ResultSet.next()` that finds a row or fails; once the
      outcomes run out, `next()` returns false. */
  datatype NextOutcome = NextRow(row: Row) | NextFails(cause: Cause)

  datatype MetaData = MetaData(columnCount: Result<nat, Cause>)

  /** The generated-keys cursor. `closeFails` says whether `close()` throws. */
  datatype ResultSet = ResultSet(metaData: Result<MetaData, Cause>, advances: seq<NextOutcome>, closeFails: bool)

  /** The executed statement: `getGeneratedKeys()` yields a cursor or fails. A driver that
      returns null is `Failure(NoCursor)`: the NullPointerException that `getMetaData()` then
      raises is wrapped like any other failure, and there is no cursor to close. */
  datatype Statement = Statement(generatedKeys: Result<ResultSet, Cause>)

  /** The parts of the mapped statement and its configuration that the generator reads. */
  datatype MappedStatement = MappedStatement(keyProperties: Option<seq<PropertyName>>, registry: Registry)

  /** A parameter object as `MetaObject` presents it: a bean with fixed setters, or a map,
      which accepts every key. */
  datatype Target =
    | Bean(fields: map<PropertyName, Value>, setterTypes: map<PropertyName, JavaType>)
    | Dictionary(entries: map<PropertyName, Value>)

  predicate HasSetter(t: Target, name: PropertyName)
  {
    match t
    case Bean(_, setterTypes) => name in setterTypes
    case Dictionary(_) => true
  }

  function SetterType(t: Target, name: PropertyName): JavaType
    requires HasSetter(t, name)
  {
    match t
    case Bean(_, setterTypes) => setterTypes[name]
    case Dictionary(entries) =>
      if name in entries && entries[name].Datum? then entries[name].javaType else ObjectType
  }

  /** The current value of a property, if it has one. */
  function Get(t: Target, name: PropertyName): Option<Value>
  {
    match t
    case Bean(fields, _) => if name in fields then Some(fields[name]) else None
    case Dictionary(entries) => if name in entries then Some(entries[name]) else None
  }

  /** `metaParam.setValue(name, v)`: the property now holds `v` and nothing else changes;
      a bean without a setter for `name` refuses. */
  function SetValue(t: Target, name: PropertyName, v: Value): (r: Result<Target, Cause>)
    ensures r.Success? <==> HasSetter(t, name)
    ensures r.Success? ==> Get(r.value, name) == Some(v)
    ensures r.Success? ==> forall other :: other != name ==> Get(r.value, other) == Get(t, other)
    ensures r.Success? ==> SameSetters(r.value, t)
    ensures r.Failure? ==> r.error == NoWritableProperty(name)
  {
    match t
    case Bean(fields, setterTypes) =>
      if name in setterTypes then Success(Bean(fields[name := v], setterTypes))
      else Failure(NoWritableProperty(name))
    case Dictionary(entries) => Success(Dictionary(entries[name := v]))
  }

  /** Two views of the same object: the same kind, and a bean keeps its setters. */
  predicate SameSetters(a: Target, b: Target)
  {
    match a
    case Bean(_, setterTypes) => b.Bean? && b.setterTypes == setterTypes
    case Dictionary(_) => b.Dictionary?
  }

  /** The handler for one key property: the registry's handler for the setter type, or
      nothing when there is no setter or no registered handler. */
  function SlotFor(registry: Registry, t: Target, name: PropertyName): Option<TypeHandler>
  {
    if HasSetter(t, name) && SetterType(t, name) in registry then Some(registry[SetterType(t, name)]) else None
  }

  /** `getTypeHandlers`: one slot per key property, resolved against `t`. */
  function GetTypeHandlers(registry: Registry, t: Target, keyProperties: seq<PropertyName>): (slots: Slots)
    ensures |slots| == |keyProperties|
    ensures forall i :: 0 <= i < |keyProperties| ==>
              (slots[i].Some? <==> HasSetter(t, keyProperties[i]) && SetterType(t, keyProperties[i]) in registry)
    ensures forall i :: 0 <= i < |keyProperties| && slots[i].Some? ==>
              slots[i].value == registry[SetterType(t, keyProperties[i])]
    decreases |keyProperties|
  {
    if |keyProperties| == 0 then []
    else
      var n := |keyProperties| - 1;
      GetTypeHandlers(registry, t, keyProperties[..n]) + [SlotFor(registry, t, keyProperties[n])]
  }

  /** `th.getResult(rs, column)` on the current row; columns are numbered from 1. */
  function GetResult(row: Row, th: TypeHandler, column: nat, convert: Converter): Result<Value, Cause>
  {
    if 1 <= column <= |row.columns| then convert(th, row.columns[column - 1])
    else Failure(ColumnOutOfRange(column))
  }

  /** The target after `populateKeys`, and the failure that stopped it, if any. Properties
      written before a failure stay written. */
  datatype Populated = Populated(target: Target, failure: Option<Cause>)

  /** Some non-empty slot from `i` on names `name`: the loop of `populateKeys` from `i`
      may write it. */
  predicate WrittenFrom(keyProperties: seq<PropertyName>, slots: Slots, name: PropertyName, i: nat)
    requires |slots| == |keyProperties|
  {
    exists m :: i <= m < |keyProperties| && slots[m].Some? && keyProperties[m] == name
  }

  /** The loop of `populateKeys` from key property `i` on. */
  function PopulateFrom(row: Row, t: Target, keyProperties: seq<PropertyName>, slots: Slots,
                        convert: Converter, i: nat): Populated
    requires |slots| == |keyProperties| && i <= |keyProperties|
    decreases |keyProperties| - i
  {
    if i == |keyProperties| then Populated(t, None)
    else match slots[i]
      case None => PopulateFrom(row, t, keyProperties, slots, convert, i + 1)
      case Some(th) =>
        match GetResult(row, th, i + 1, convert)
        case Failure(c) => Populated(t, Some(c))
        case Success(v) =>
          match SetValue(t, keyProperties[i], v)
          case Failure(c) => Populated(t, Some(c))
          case Success(t') => PopulateFrom(row, t', keyProperties, slots, convert, i + 1)
  }

  /** `populateKeys`: for each non-empty slot `i`, column `i + 1` of the row goes into
      `keyProperties[i]`. Only properties named by non-empty slots change, and the object
      keeps its kind and setters, whether or not a step fails. */
  function PopulateKeys(row: Row, t: Target, keyProperties: seq<PropertyName>, slots: Slots,
                        convert: Converter): (r: Populated)
    requires |slots| == |keyProperties|
    ensures SameSetters(r.target, t)
    ensures forall name :: !WrittenFrom(keyProperties, slots, name, 0) ==> Get(r.target, name) == Get(t, name)
    ensures r.failure.None? <==> Populatable(row, t, keyProperties, slots, convert, 0)
  {
    PopulateFrame(row, t, keyProperties, slots, convert, 0);
    PopulateSucceeds(row, t, keyProperties, slots, convert, 0);
    PopulateFrom(row, t, keyProperties, slots, convert, 0)
  }

  lemma {:induction false} PopulateFrame(row: Row, t: Target, keyProperties: seq<PropertyName>, slots: Slots,
                                         convert: Converter, i: nat)
    requires |slots| == |keyProperties| && i <= |keyProperties|
    ensures SameSetters(PopulateFrom(row, t, keyProperties, slots, convert, i).target, t)
    ensures forall name :: !WrittenFrom(keyProperties, slots, name, i) ==>
              Get(PopulateFrom(row, t, keyProperties, slots, convert, i).target, name) == Get(t, name)
    decreases |keyProperties| - i
  {
    if i == |keyProperties| {
      SameSettersRefl(t);
    } else if slots[i].None? {
      PopulateFrame(row, t, keyProperties, slots, convert, i + 1);
      WrittenFromNext(keyProperties, slots, i);
    } else {
      var r := GetResult(row, slots[i].value, i + 1, convert);
      if r.Failure? || SetValue(t, keyProperties[i], r.value).Failure? {
        SameSettersRefl(t);
      } else {
        var next := SetValue(t, keyProperties[i], r.value).value;
        PopulateFrame(row, next, keyProperties, slots, convert, i + 1);
        WrittenFromNext(keyProperties, slots, i);
        forall name | !WrittenFrom(keyProperties, slots, name, i)
          ensures Get(next, name) == Get(t, name)
        {
          assert keyProperties[i] != name;
        }
        SameSettersTrans(PopulateFrom(row, next, keyProperties, slots, convert, i + 1).target, next, t);
      }
    }
  }

  /** Every non-empty slot from `i` on can be read from the row and written to `t`. */
  predicate Populatable(row: Row, t: Target, keyProperties: seq<PropertyName>, slots: Slots,
                        convert: Converter, i: nat)
    requires |slots| == |keyProperties|
  {
    forall m :: i <= m < |keyProperties| && slots[m].Some? ==>
      GetResult(row, slots[m].value, m + 1, convert).Success? && HasSetter(t, keyProperties[m])
  }

  lemma {:induction false} PopulateSucceeds(row: Row, t: Target, keyProperties: seq<PropertyName>, slots: Slots,
                                            convert: Converter, i: nat)
    requires |slots| == |keyProperties| && i <= |keyProperties|
    ensures PopulateFrom(row, t, keyProperties, slots, convert, i).failure.None?
        <==> Populatable(row, t, keyProperties, slots, convert, i)
    decreases |keyProperties| - i
  {
    if i < |keyProperties| {
      if slots[i].None? {
        PopulateSucceeds(row, t, keyProperties, slots, convert, i + 1);
        assert Populatable(row, t, keyProperties, slots, convert, i)
            <==> Populatable(row, t, keyProperties, slots, convert, i + 1);
      } else {
        var r := GetResult(row, slots[i].value, i + 1, convert);
        if r.Success? && HasSetter(t, keyProperties[i]) {
          var next := SetValue(t, keyProperties[i], r.value).value;
          PopulateSucceeds(row, next, keyProperties, slots, convert, i + 1);
          SameSettersHas(next, t);
          assert Populatable(row, t, keyProperties, slots, convert, i)
              <==> Populatable(row, next, keyProperties, slots, convert, i + 1);
        }
      }
    }
  }

  lemma SameSettersHas(a: Target, b: Target)
    requires SameSetters(a, b)
    ensures forall name :: HasSetter(a, name) <==> HasSetter(b, name)
  {
  }

  lemma WrittenFromNext(keyProperties: seq<PropertyName>, slots: Slots, i: nat)
    requires |slots| == |keyProperties| && i < |keyProperties|
    ensures forall name :: !WrittenFrom(keyProperties, slots, name, i) ==> !WrittenFrom(keyProperties, slots, name, i + 1)
  {
  }

  lemma SameSettersRefl(a: Target)
    ensures SameSetters(a, a)
  {
  }

  lemma SameSettersTrans(a: Target, b: Target, c: Target)
    requires SameSetters(a, b) && SameSetters(b, c)
    ensures SameSetters(a, c)
  {
  }

  /** The parameters after the loop of `processBatch`, the cause it stopped on, if any, and
      how often it called `next()`. */
  datatype Bound = Bound(parameters: seq<Target>, error: Option<Cause>, nextCalls: nat)

  /** The loop of `processBatch` from parameter `k` on, having made `k` calls of `next()`.
      `slots` is the handler array once resolved. */
  function BindFrom(registry: Registry, keyProperties: seq<PropertyName>, advances: seq<NextOutcome>,
                    params: seq<Target>, k: nat, slots: Option<Slots>, convert: Converter): (b: Bound)
    requires k <= |params|
    requires slots.Some? ==> |slots.value| == |keyProperties|
    ensures |b.parameters| == |params|
    decreases |params| - k
  {
    if k == |params| then Bound(params, None, k)
    else if k >= |advances| then Bound(params, None, k + 1)  // next() returns false: stop, no error
    else match advances[k]
      case NextFails(c) => Bound(params, Some(c), k + 1)
      case NextRow(row) =>
        // the handlers are resolved on the first pass only, from the parameter of that pass
        var s := if slots.Some? then slots.value else GetTypeHandlers(registry, params[k], keyProperties);
        var p := PopulateKeys(row, params[k], keyProperties, s, convert);
        var updated := params[k := p.target];
        if p.failure.Some? then Bound(updated, p.failure, k + 1)
        else BindFrom(registry, keyProperties, advances, updated, k + 1, Some(s), convert)
  }

  /** The result of `processBatch`: the parameters as the call leaves them, the exception it
      throws, and how often it called `next()` and `close()` on the cursor. */
  datatype BatchOutcome = BatchOutcome(parameters: seq<Target>, error: Option<ExecutorException>,
                                       nextCalls: nat, closeCalls: nat)

  /** The guard of `processBatch` lets binding proceed: key properties are configured and
      the cursor has at least as many columns as there are key properties. */
  predicate GuardPasses(ms: MappedStatement, md: MetaData)
  {
    ms.keyProperties.Some? && md.columnCount.Success? && md.columnCount.value >= |ms.keyProperties.value|
  }

  /** The body of the `try` block, once the cursor is open. `getColumnCount()` is only
      called when key properties are configured. */
  function BatchBody(ms: MappedStatement, rs: ResultSet, params: seq<Target>, convert: Converter): (b: Bound)
    ensures |b.parameters| == |params|
  {
    match rs.metaData
    case Failure(c) => Bound(params, Some(c), 0)
    case Success(md) =>
      match ms.keyProperties
      case None => Bound(params, None, 0)
      case Some(keyProperties) =>
        match md.columnCount
        case Failure(c) => Bound(params, Some(c), 0)
        case Success(count) =>
          if count < |keyProperties| then Bound(params, None, 0)
          else BindFrom(ms.registry, keyProperties, rs.advances, params, 0, None, convert)
  }

  /** `processBatch`. Every failure is wrapped in one `ExecutorException` carrying its
      cause; an open cursor is closed once whatever happens; and when the guard fails no row
      is read and no parameter changes. */
  function ProcessBatch(ms: MappedStatement, stmt: Statement, params: seq<Target>, convert: Converter): (r: BatchOutcome)
    ensures |r.parameters| == |params|
    ensures r.closeCalls == if stmt.generatedKeys.Success? then 1 else 0
    ensures stmt.generatedKeys.Failure? ==>
              r == BatchOutcome(params, Some(ExecutorException(stmt.generatedKeys.error)), 0, 0)
    ensures stmt.generatedKeys.Success? && stmt.generatedKeys.value.metaData.Failure? ==>
              r == BatchOutcome(params, Some(ExecutorException(stmt.generatedKeys.value.metaData.error)), 0, 1)
    ensures stmt.generatedKeys.Success? && stmt.generatedKeys.value.metaData.Success? ==>
              var md := stmt.generatedKeys.value.metaData.value;
              (ms.keyProperties.Some? && md.columnCount.Failure?) ==>
                r == BatchOutcome(params, Some(ExecutorException(md.columnCount.error)), 0, 1)
    ensures stmt.generatedKeys.Success? && stmt.generatedKeys.value.metaData.Success? ==>
              var md := stmt.generatedKeys.value.metaData.value;
              (ms.keyProperties.None? || (md.columnCount.Success? && !GuardPasses(ms, md))) ==>
                r == BatchOutcome(params, None, 0, 1)
  {
    match stmt.generatedKeys
    case Failure(c) => BatchOutcome(params, Some(ExecutorException(c)), 0, 0)
    case Success(rs) =>
      var b := BatchBody(ms, rs, params, convert);
      var error := if b.error.Some? then Some(ExecutorException(b.error.value)) else None;
      BatchOutcome(b.parameters, error, b.nextCalls, 1)
  }

  /** `processAfter`: the batch of the one parameter. */
  function ProcessAfter(ms: MappedStatement, stmt: Statement, parameter: Target, convert: Converter): (r: BatchOutcome)
    ensures |r.parameters| == 1
    ensures r.closeCalls == if stmt.generatedKeys.Success? then 1 else 0
  {
    ProcessBatch(ms, stmt, [parameter], convert)
  }

  /** `processBefore` does nothing: no cursor is read or closed and the parameter is left as
      it is. */
  function ProcessBefore(ms: MappedStatement, stmt: Statement, parameter: Target): (r: BatchOutcome)
    ensures r.parameters == [parameter] && r.error.None?
    ensures r.nextCalls == 0 && r.closeCalls == 0
  {
    BatchOutcome([parameter], None, 0, 0)
  }
}

=== FILE: key_generator_examples.dfy ===
/** Batches worked through `processBatch` with one key property, `id`, of type `Long`. */
module KeyGeneratorExamples {
  import opened Results
  import opened Jdbc3KeyGenerator

  const LongType: JavaType := "java.lang.Long"
  const Id: PropertyName := "id"

  /** The column value as the handler's type. */
  function AsHandlerType(th: TypeHandler, v: Value): Result<Value, Cause>
  {
    Success(if v.Datum? then Datum(th.javaType, v.text) else Null)
  }

  function Key(text: string): Value
  {
    Datum(LongType, text)
  }

  function KeyRow(text: string): NextOutcome
  {
    NextRow(Row([Key(text)]))
  }

  /** An insert whose statement declares `id` as its key property; the registry knows `Long`. */
  function Insert(): MappedStatement
  {
    MappedStatement(Some([Id]), map[LongType := TypeHandler(LongType)])
  }

  function Keys(advances: seq<NextOutcome>): Statement
  {
    Statement(Success(ResultSet(Success(MetaData(Success(1))), advances, false)))
  }

  /** A bean with a `Long` setter for `id` and no value in it yet. */
  function Fresh(): Target
  {
    Bean(map[], map[Id := LongType])
  }

  function WithId(text: string): Target
  {
    Bean(map[Id := Key(text)], map[Id := LongType])
  }

  /** `populateKeys` with the one key property `id`, a handler for it and a one-column row. */
  lemma PopulateId(v: Value, t: Target, th: TypeHandler)
    ensures PopulateKeys(Row([v]), t, [Id], [Some(th)], AsHandlerType)
         == match SetValue(t, Id, AsHandlerType(th, v).value)
            case Success(t') => Populated(t', None)
            case Failure(c) => Populated(t, Some(c))
  {
    assert GetResult(Row([v]), th, 1, AsHandlerType) == AsHandlerType(th, v);
    var w := SetValue(t, Id, AsHandlerType(th, v).value);
    if w.Success? {
      assert PopulateFrom(Row([v]), w.value, [Id], [Some(th)], AsHandlerType, 1) == Populated(w.value, None);
    }
  }

  /** `populateKeys` with an empty slot for `id` leaves the parameter as it is. */
  lemma SkippedId(row: Row, t: Target)
    ensures PopulateKeys(row, t, [Id], [None], AsHandlerType) == Populated(t, None)
  {
    assert PopulateFrom(row, t, [Id], [None], AsHandlerType, 1) == Populated(t, None);
  }

  /** A fresh bean receives the key. */
  lemma FreshGetsKey(text: string)
    ensures PopulateKeys(Row([Key(text)]), Fresh(), [Id], [Some(TypeHandler(LongType))], AsHandlerType)
         == Populated(WithId(text), None)
  {
    PopulateId(Key(text), Fresh(), TypeHandler(LongType));
    assert Fresh().fields[Id := Key(text)] == map[Id := Key(text)];
  }

  /** Two rows, two parameters: each gets the key of its own row, in cursor order. */
  lemma TwoRowsBindInOrder()
    ensures ProcessBatch(Insert(), Keys([KeyRow("1"), KeyRow("2")]), [Fresh(), Fresh()], AsHandlerType)
         == BatchOutcome([WithId("1"), WithId("2")], None, 2, 1)
  {
    var slots := [Some(TypeHandler(LongType))];
    assert GetTypeHandlers(Insert().registry, Fresh(), [Id]) == slots;
    FreshGetsKey("1");
    FreshGetsKey("2");
    var rows := [KeyRow("1"), KeyRow("2")];
    var r := Insert().registry;
    assert BindFrom(r, [Id], rows, [WithId("1"), WithId("2")], 2, Some(slots), AsHandlerType)
        == Bound([WithId("1"), WithId("2")], None, 2);
    assert [WithId("1"), Fresh()][1 := WithId("2")] == [WithId("1"), WithId("2")];
    assert BindFrom(r, [Id], rows, [WithId("1"), Fresh()], 1, Some(slots), AsHandlerType)
        == Bound([WithId("1"), WithId("2")], None, 2);
    assert [Fresh(), Fresh()][0 := WithId("1")] == [WithId("1"), Fresh()];
    assert BindFrom(r, [Id], rows, [Fresh(), Fresh()], 0, None, AsHandlerType)
        == Bound([WithId("1"), WithId("2")], None, 2);
  }

  /** Three parameters, two rows: the third is left as it was and nothing fails. */
  lemma ShortCursorLeavesRest()
    ensures ProcessBatch(Insert(), Keys([KeyRow("1"), KeyRow("2")]), [Fresh(), Fresh(), Fresh()], AsHandlerType)
         == BatchOutcome([WithId("1"), WithId("2"), Fresh()], None, 3, 1)
  {
    var slots := [Some(TypeHandler(LongType))];
    assert GetTypeHandlers(Insert().registry, Fresh(), [Id]) == slots;
    FreshGetsKey("1");
    FreshGetsKey("2");
    var rows := [KeyRow("1"), KeyRow("2")];
    var r := Insert().registry;
    var done := [WithId("1"), WithId("2"), Fresh()];
    assert BindFrom(r, [Id], rows, done, 2, Some(slots), AsHandlerType) == Bound(done, None, 3);
    assert [WithId("1"), Fresh(), Fresh()][1 := WithId("2")] == done;
    assert BindFrom(r, [Id], rows, [WithId("1"), Fresh(), Fresh()], 1, Some(slots), AsHandlerType)
        == Bound(done, None, 3);
    assert [Fresh(), Fresh(), Fresh()][0 := WithId("1")] == [WithId("1"), Fresh(), Fresh()];
    assert BindFrom(r, [Id], rows, [Fresh(), Fresh(), Fresh()], 0, None, AsHandlerType)
        == Bound(done, None, 3);
  }

  /** The first parameter has no setter for `id`, so `id` is skipped for the whole batch,
      though the second parameter, a map, would accept it. */
  lemma FirstParameterDecidesSlots()
    ensures ProcessBatch(Insert(), Keys([KeyRow("1"), KeyRow("2")]), [Bean(map[], map[]), Dictionary(map[])], AsHandlerType)
         == BatchOutcome([Bean(map[], map[]), Dictionary(map[])], None, 2, 1)
  {
    var slots: Slots := [None];
    var params := [Bean(map[], map[]), Dictionary(map[])];
    var rows := [KeyRow("1"), KeyRow("2")];
    var r := Insert().registry;
    assert GetTypeHandlers(r, Bean(map[], map[]), [Id]) == slots;
    SkippedId(Row([Key("1")]), params[0]);
    SkippedId(Row([Key("2")]), params[1]);
    assert params[1 := params[1]] == params && params[0 := params[0]] == params;
    assert BindFrom(r, [Id], rows, params, 1, Some(slots), AsHandlerType) == Bound(params, None, 2);
  }

  /** The cursor fails on the second row: one wrapped exception carrying the cause, the
      first parameter keeps its key, and the cursor is closed once. */
  lemma FailureKeepsEarlierKeys()
    ensures ProcessBatch(Insert(), Keys([KeyRow("1"), NextFails(SqlFailure("connection reset"))]),
                         [Fresh(), Fresh()], AsHandlerType)
         == BatchOutcome([WithId("1"), Fresh()], Some(ExecutorException(SqlFailure("connection reset"))), 2, 1)
  {
    var slots := [Some(TypeHandler(LongType))];
    assert GetTypeHandlers(Insert().registry, Fresh(), [Id]) == slots;
    FreshGetsKey("1");
    var rows := [KeyRow("1"), NextFails(SqlFailure("connection reset"))];
    var r := Insert().registry;
    assert BindFrom(r, [Id], rows, [WithId("1"), Fresh()], 1, Some(slots), AsHandlerType)
        == Bound([WithId("1"), Fresh()], Some(SqlFailure("connection reset")), 2);
    assert [Fresh(), Fresh()][0 := WithId("1")] == [WithId("1"), Fresh()];
  }

  /** The handlers come from the first parameter, a map whose `id` holds a `Long`; the second
      parameter, a bean without an `id` setter, then refuses the write. */
  lemma LaterParameterWithoutSetterFails()
    ensures ProcessBatch(Insert(), Keys([KeyRow("1"), KeyRow("2")]),
                         [Dictionary(map[Id := Key("0")]), Bean(map[], map[])], AsHandlerType)
         == BatchOutcome([Dictionary(map[Id := Key("1")]), Bean(map[], map[])],
                         Some(ExecutorException(NoWritableProperty(Id))), 2, 1)
  {
    var slots := [Some(TypeHandler(LongType))];
    assert GetTypeHandlers(Insert().registry, Dictionary(map[Id := Key("0")]), [Id]) == slots;
    PopulateId(Key("1"), Dictionary(map[Id := Key("0")]), TypeHandler(LongType));
    assert map[Id := Key("0")][Id := Key("1")] == map[Id := Key("1")];
    PopulateId(Key("2"), Bean(map[], map[]), TypeHandler(LongType));
    var rows := [KeyRow("1"), KeyRow("2")];
    var r := Insert().registry;
    var first := Dictionary(map[Id := Key("1")]);
    assert [first, Bean(map[], map[])][1 := Bean(map[], map[])] == [first, Bean(map[], map[])];
    assert BindFrom(r, [Id], rows, [first, Bean(map[], map[])], 1, Some(slots), AsHandlerType)
        == Bound([first, Bean(map[], map[])], Some(NoWritableProperty(Id)), 2);
    assert [Dictionary(map[Id := Key("0")]), Bean(map[], map[])][0 := first] == [first, Bean(map[], map[])];
  }

  /** Fewer columns than key properties: nothing is read and nothing changes. */
  lemma TooFewColumnsIsNoOp()
    ensures ProcessBatch(MappedStatement(Some([Id, "version"]), Insert().registry), Keys([KeyRow("1")]),
                         [Fresh()], AsHandlerType)
         == BatchOutcome([Fresh()], None, 0, 1)
  {
  }
}

=== FILE: key_generator_properties.dfy ===
/** What `processBatch` does to a batch, parameter by parameter: parameter `j` is bound from
    row `j` with the handlers resolved from the first parameter, the loop stops quietly when
    the rows run out, and a failure keeps the bindings made before it. */
module KeyGeneratorProperties {
  import opened Results
  import opened Jdbc3KeyGenerator

  /** Pass `j` found a row and `populateKeys` finished on it with `slots`, turning `before`
      into `after`. */
  predicate Completed(advances: seq<NextOutcome>, j: nat, before: Target, keyProperties: seq<PropertyName>,
                      slots: Slots, convert: Converter, after: Target)
    requires |slots| == |keyProperties|
  {
    && j < |advances|
    && advances[j].NextRow?
    && PopulateKeys(advances[j].row, before, keyProperties, slots, convert) == Populated(after, None)
  }

  /** Pass `j` failed with `cause`: either `next()` threw and `before` is untouched, or
      `populateKeys` stopped part-way and `after` keeps what it wrote. */
  predicate FailedAt(advances: seq<NextOutcome>, j: nat, before: Target, keyProperties: seq<PropertyName>,
                     slots: Slots, convert: Converter, after: Target, cause: Cause)
    requires |slots| == |keyProperties|
  {
    && j < |advances|
    && match advances[j]
       case NextFails(c) => cause == c && after == before
       case NextRow(row) => PopulateKeys(row, before, keyProperties, slots, convert) == Populated(after, Some(cause))
  }

  /** The outcome `b` of the loop started at parameter `k`, having made `n = b.nextCalls`
      calls of `next()`: the passes before the last completed, the parameters after it are
      untouched, and the last pass either completed, found no row, or failed. */
  predicate Shape(advances: seq<NextOutcome>, params: seq<Target>, keyProperties: seq<PropertyName>,
                  slots: Slots, convert: Converter, k: nat, b: Bound)
    requires |slots| == |keyProperties| && |b.parameters| == |params|
  {
    var n := b.nextCalls;
    && k <= n <= |params|
    && (forall j :: 0 <= j < k ==> b.parameters[j] == params[j])
    && (forall j :: k <= j < n - 1 ==> Completed(advances, j, params[j], keyProperties, slots, convert, b.parameters[j]))
    && (forall j :: n <= j < |params| ==> b.parameters[j] == params[j])
    && (b.error.None? ==> n == if |params| <= |advances| then |params| else |advances| + 1)
    && (b.error.None? && k < n <= |advances| ==>
          Completed(advances, n - 1, params[n - 1], keyProperties, slots, convert, b.parameters[n - 1]))
    && (b.error.None? && n == |advances| + 1 ==> b.parameters[n - 1] == params[n - 1])
    && (b.error.Some? ==>
          k < n && FailedAt(advances, n - 1, params[n - 1], keyProperties, slots, convert, b.parameters[n - 1], b.error.value))
  }

  /** The loop with its handlers already resolved to `slots`. */
  lemma {:induction false} BindFromShape(registry: Registry, keyProperties: seq<PropertyName>, advances: seq<NextOutcome>,
                                         params: seq<Target>, k: nat, slots: Slots, convert: Converter)
    requires k <= |params| && k <= |advances| && |slots| == |keyProperties|
    ensures Shape(advances, params, keyProperties, slots, convert, k,
                  BindFrom(registry, keyProperties, advances, params, k, Some(slots), convert))
    decreases |params| - k
  {
    if LastPass(advances, params, keyProperties, slots, convert, k) {
      LastPassShape(registry, keyProperties, advances, params, k, slots, convert);
    } else {
      var p := PopulateKeys(advances[k].row, params[k], keyProperties, slots, convert);
      var updated := params[k := p.target];
      var b := BindFrom(registry, keyProperties, advances, updated, k + 1, Some(slots), convert);
      assert b == BindFrom(registry, keyProperties, advances, params, k, Some(slots), convert);
      BindFromShape(registry, keyProperties, advances, updated, k + 1, slots, convert);
      assert b.parameters[k] == p.target;
      ShapeStep(advances, params, updated, keyProperties, slots, convert, k, b);
    }
  }

  /** The loop ends at pass `k`: no parameter is left, no row is left, or the pass fails. */
  predicate LastPass(advances: seq<NextOutcome>, params: seq<Target>, keyProperties: seq<PropertyName>,
                     slots: Slots, convert: Converter, k: nat)
    requires |slots| == |keyProperties| && k <= |params| && k <= |advances|
  {
    || k == |params|
    || k == |advances|
    || advances[k].NextFails?
    || PopulateKeys(advances[k].row, params[k], keyProperties, slots, convert).failure.Some?
  }

  lemma LastPassShape(registry: Registry, keyProperties: seq<PropertyName>, advances: seq<NextOutcome>,
                      params: seq<Target>, k: nat, slots: Slots, convert: Converter)
    requires k <= |params| && k <= |advances| && |slots| == |keyProperties|
    requires LastPass(advances, params, keyProperties, slots, convert, k)
    ensures Shape(advances, params, keyProperties, slots, convert, k,
                  BindFrom(registry, keyProperties, advances, params, k, Some(slots), convert))
  {
  }

  /** One completed pass at `k` extends the shape of the rest of the loop back to `k`. */
  lemma ShapeStep(advances: seq<NextOutcome>, params: seq<Target>, updated: seq<Target>, keyProperties: seq<PropertyName>,
                  slots: Slots, convert: Converter, k: nat, b: Bound)
    requires |slots| == |keyProperties| && k < |params| && k < |advances|
    requires |updated| == |params| == |b.parameters|
    requires forall j :: 0 <= j < |params| && j != k ==> updated[j] == params[j]
    requires Completed(advances, k, params[k], keyProperties, slots, convert, b.parameters[k])
    requires Shape(advances, updated, keyProperties, slots, convert, k + 1, b)
    ensures Shape(advances, params, keyProperties, slots, convert, k, b)
  {
    var n := b.nextCalls;
    forall j | k <= j < n - 1
      ensures Completed(advances, j, params[j], keyProperties, slots, convert, b.parameters[j])
    {
      if j > k {
        assert updated[j] == params[j];
      }
    }
    if b.error.None? && k < n <= |advances| && n - 1 > k {
      assert updated[n - 1] == params[n - 1];
    }
  }

  /** `processBatch` resolves the handlers once, from the first parameter, and uses them for
      every parameter. */
  lemma ResolvedFromFirstParameter(registry: Registry, keyProperties: seq<PropertyName>, advances: seq<NextOutcome>,
                                   params: seq<Target>, convert: Converter)
    requires |params| > 0
    ensures BindFrom(registry, keyProperties, advances, params, 0, None, convert)
         == BindFrom(registry, keyProperties, advances, params, 0, Some(GetTypeHandlers(registry, params[0], keyProperties)), convert)
  {
  }

  /** The outcome of `processBatch` with the exception unwrapped to its cause. */
  function Unwrapped(r: BatchOutcome): (b: Bound)
    ensures |b.parameters| == |r.parameters| && b.nextCalls == r.nextCalls
    ensures b.error.Some? <==> r.error.Some?
  {
    Bound(r.parameters, if r.error.Some? then Some(r.error.value.cause) else None, r.nextCalls)
  }

  /** The binding proceeds: the cursor opened, its column count was read and is large
      enough. */
  predicate Binds(ms: MappedStatement, stmt: Statement)
  {
    && stmt.generatedKeys.Success?
    && stmt.generatedKeys.value.metaData.Success?
    && GuardPasses(ms, stmt.generatedKeys.value.metaData.value)
  }

  /** Once the guard passes, parameter `j` of the batch is bound from row `j` with the
      handlers resolved from the first parameter; binding stops without error when the rows
      run out; on a failure, the exception carries its cause and the parameters bound
      before it keep their keys. */
  lemma BatchShape(ms: MappedStatement, stmt: Statement, params: seq<Target>, convert: Converter)
    requires Binds(ms, stmt) && |params| > 0
    ensures var keyProperties := ms.keyProperties.value;
            Shape(stmt.generatedKeys.value.advances, params, keyProperties,
                  GetTypeHandlers(ms.registry, params[0], keyProperties), convert, 0,
                  Unwrapped(ProcessBatch(ms, stmt, params, convert)))
  {
    var keyProperties := ms.keyProperties.value;
    var advances := stmt.generatedKeys.value.advances;
    var slots := GetTypeHandlers(ms.registry, params[0], keyProperties);
    ResolvedFromFirstParameter(ms.registry, keyProperties, advances, params, convert);
    if |advances| == 0 {
      assert ProcessBatch(ms, stmt, params, convert) == BatchOutcome(params, None, 1, 1);
    } else {
      BindFromShape(ms.registry, keyProperties, advances, params, 0, slots, convert);
      var b := BindFrom(ms.registry, keyProperties, advances, params, 0, Some(slots), convert);
      assert Unwrapped(ProcessBatch(ms, stmt, params, convert)) == b;
    }
  }

  /** An empty batch reads no row. */
  lemma EmptyBatch(ms: MappedStatement, stmt: Statement, convert: Converter)
    ensures ProcessBatch(ms, stmt, [], convert).parameters == []
    ensures ProcessBatch(ms, stmt, [], convert).nextCalls == 0
  {
  }

  /** `processAfter` binds its parameter from the first row, if there is one, and calls
      `next()` exactly once once the guard passes. */
  lemma ProcessAfterShape(ms: MappedStatement, stmt: Statement, parameter: Target, convert: Converter)
    requires Binds(ms, stmt)
    ensures var keyProperties := ms.keyProperties.value;
            Shape(stmt.generatedKeys.value.advances, [parameter], keyProperties,
                  GetTypeHandlers(ms.registry, parameter, keyProperties), convert, 0,
                  Unwrapped(ProcessAfter(ms, stmt, parameter, convert)))
    ensures ProcessAfter(ms, stmt, parameter, convert).nextCalls == 1
  {
    BatchShape(ms, stmt, [parameter], convert);
  }

  /** A failing `close()` changes nothing in the outcome. */
  lemma CloseFailureIgnored(ms: MappedStatement, rs: ResultSet, params: seq<Target>, convert: Converter)
    ensures ProcessBatch(ms, Statement(Success(rs)), params, convert)
         == ProcessBatch(ms, Statement(Success(rs.(closeFails := !rs.closeFails))), params, convert)
  {
  }

  /** With distinct key property names, a completed `populateKeys` leaves in `keyProperties[i]`
      what the handler of slot `i` read from column `i + 1`, for every non-empty slot. */
  lemma PopulateWritesColumns(row: Row, t: Target, keyProperties: seq<PropertyName>, slots: Slots, convert: Converter)
    requires |slots| == |keyProperties|
    requires forall a, b :: 0 <= a < b < |keyProperties| ==> keyProperties[a] != keyProperties[b]
    requires PopulateKeys(row, t, keyProperties, slots, convert).failure.None?
    ensures forall i :: 0 <= i < |keyProperties| && slots[i].Some? ==>
              && GetResult(row, slots[i].value, i + 1, convert).Success?
              && Get(PopulateKeys(row, t, keyProperties, slots, convert).target, keyProperties[i])
                 == Some(GetResult(row, slots[i].value, i + 1, convert).value)
  {
    PopulateFromWrites(row, t, keyProperties, slots, convert, 0);
  }

  lemma {:induction false} PopulateFromWrites(row: Row, t: Target, keyProperties: seq<PropertyName>, slots: Slots,
                                              convert: Converter, i: nat)
    requires |slots| == |keyProperties| && i <= |keyProperties|
    requires forall a, b :: 0 <= a < b < |keyProperties| ==> keyProperties[a] != keyProperties[b]
    requires PopulateFrom(row, t, keyProperties, slots, convert, i).failure.None?
    ensures forall m :: i <= m < |keyProperties| && slots[m].Some? ==>
              && GetResult(row, slots[m].value, m + 1, convert).Success?
              && Get(PopulateFrom(row, t, keyProperties, slots, convert, i).target, keyProperties[m])
                 == Some(GetResult(row, slots[m].value, m + 1, convert).value)
    decreases |keyProperties| - i
  {
    if i < |keyProperties| {
      if slots[i].None? {
        PopulateFromWrites(row, t, keyProperties, slots, convert, i + 1);
      } else {
        var v := GetResult(row, slots[i].value, i + 1, convert).value;
        var next := SetValue(t, keyProperties[i], v).value;
        PopulateFromWrites(row, next, keyProperties, slots, convert, i + 1);
        PopulateFrame(row, next, keyProperties, slots, convert, i + 1);
        assert !WrittenFrom(keyProperties, slots, keyProperties[i], i + 1);
      }
    }
  }

  /** A key property whose slot is empty (the first parameter has no setter for it, or the
      registry no handler for the setter's type), and which no other slot names, keeps its
      value on every parameter of the batch. */
  lemma EmptySlotSkippedForBatch(ms: MappedStatement, stmt: Statement, params: seq<Target>, convert: Converter, i: nat)
    requires Binds(ms, stmt) && |params| > 0
    requires var keyProperties := ms.keyProperties.value;
             var slots := GetTypeHandlers(ms.registry, params[0], keyProperties);
             i < |keyProperties|
             && forall m :: 0 <= m < |keyProperties| && keyProperties[m] == keyProperties[i] ==> slots[m].None?
    ensures forall j :: 0 <= j < |params| ==>
              Get(ProcessBatch(ms, stmt, params, convert).parameters[j], ms.keyProperties.value[i])
              == Get(params[j], ms.keyProperties.value[i])
  {
    var keyProperties := ms.keyProperties.value;
    var slots := GetTypeHandlers(ms.registry, params[0], keyProperties);
    var advances := stmt.generatedKeys.value.advances;
    var name := keyProperties[i];
    var b := Unwrapped(ProcessBatch(ms, stmt, params, convert));
    BatchShape(ms, stmt, params, convert);
    assert !WrittenFrom(keyProperties, slots, name, 0);
    forall j | 0 <= j < |params|
      ensures Get(b.parameters[j], name) == Get(params[j], name)
    {
      if j < b.nextCalls - 1 {
        assert Completed(advances, j, params[j], keyProperties, slots, convert, b.parameters[j]);
      } else if j == b.nextCalls - 1 && j < |advances| && advances[j].NextRow? {
        assert b.parameters[j] == PopulateKeys(advances[j].row, params[j], keyProperties, slots, convert).target;
      }
    }
  }
}

=== FILE: results.dfy ===
/** Option and Result shared by both components. */
module Results {

  /** A value that may be absent; stands for a Java reference that may be null. */
  datatype Option<+T> = None | Some(value: T) {

    /** The value, or `default` when there is none. */
    function GetOr(default: T): T
    {
      match this
      case Some(v) => v
      case None => default
    }
  }

  /** Either a computed value or the error that stopped the computation. */
  datatype Result<+R, +E> = Success(value: R) | Failure(error: E)
}

=== FILE: text.dfy ===
/** String searching as `java.lang.String.indexOf(String, int)` performs it. */
module Text {

  /** `pat[j..]` matches `text` from index `i + j` on. */
  predicate MatchesFrom(text: string, pat: string, i: nat, j: nat)
    requires i + |pat| <= |text| && j <= |pat|
    decreases |pat| - j
  {
    j == |pat| || (text[i + j] == pat[j] && MatchesFrom(text, pat, i, j + 1))
  }

  /** `pat` occurs in `text` starting at index `i`. */
  predicate OccursAt(text: string, pat: string, i: nat)
  {
    i + |pat| <= |text| && MatchesFrom(text, pat, i, 0)
  }

  /** The least index `>= from` at which `pat` occurs in `text`, or -1 when there is none.
      An empty `pat` is found at `from` itself, as in Java. */
  function IndexOf(text: string, pat: string, from: nat): (r: int)
    requires from <= |text|
    ensures r == -1 || (from <= r && OccursAt(text, pat, r))
    ensures r == -1 ==> forall i :: from <= i ==> !OccursAt(text, pat, i)
    ensures r != -1 ==> forall i :: from <= i < r ==> !OccursAt(text, pat, i)
    decreases |text| - from
  {
    if from + |pat| > |text| then -1
    else if OccursAt(text, pat, from) then from
    else IndexOf(text, pat, from + 1)
  }

  lemma {:induction false} MatchesFromChars(text: string, pat: string, i: nat, j: nat)
    requires i + |pat| <= |text| && j <= |pat|
    ensures MatchesFrom(text, pat, i, j) <==> forall m :: j <= m < |pat| ==> text[i + m] == pat[m]
    decreases |pat| - j
  {
    if j < |pat| {
      MatchesFromChars(text, pat, i, j + 1);
    }
  }

  /** An occurrence is a character-by-character agreement. */
  lemma OccursAtChars(text: string, pat: string, i: nat)
    ensures OccursAt(text, pat, i)
        <==> i + |pat| <= |text| && forall m :: 0 <= m < |pat| ==> text[i + m] == pat[m]
  {
    if i + |pat| <= |text| {
      MatchesFromChars(text, pat, i, 0);
    }
  }

  /** One character of an occurrence. */
  lemma OccursAtChar(text: string, pat: string, i: nat, m: nat)
    requires OccursAt(text, pat, i) && m < |pat|
    ensures text[i + m] == pat[m]
  {
    OccursAtChars(text, pat, i);
  }

  /** An occurrence, read as a slice. */
  lemma OccursAtSlice(text: string, pat: string, i: nat)
    requires OccursAt(text, pat, i)
    ensures text[i..i + |pat|] == pat
  {
    OccursAtChars(text, pat, i);
    forall m | 0 <= m < |pat|
      ensures text[i..i + |pat|][m] == pat[m]
    {
      assert text[i..i + |pat|][m] == text[i + m];
    }
  }

  /** Starting the search later finds the same occurrence, as long as the search does not
      start past it. */
  lemma {:induction false} IndexOfLater(text: string, pat: string, from: nat, mid: nat)
    requires from <= mid <= |text|
    requires IndexOf(text, pat, from) == -1 || mid <= IndexOf(text, pat, from)
    ensures IndexOf(text, pat, mid) == IndexOf(text, pat, from)
    decreases mid - from
  {
    if from < mid {
      if from + |pat| > |text| {
        assert mid + |pat| > |text|;
      } else {
        assert !OccursAt(text, pat, from);
        IndexOfLater(text, pat, from + 1, mid);
      }
    }
  }
}

=== FILE: token_scanner.dfy ===
/** The escape-aware `open ... close` token scanner of `GenericTokenParser`.

    The scan is modelled in two stages. `Split` cuts the text into pieces, given as
    index ranges of the original text, without ever consulting the handler;
    `Render` then produces the output, calling the handler once per `Token` piece.
    Because the handler only enters at the second stage, its output is never
    scanned again. `Parse` is the offset loop of the source, proved to compute
    exactly `Render` of `Split`. */
module TokenScanner {
  import opened Results
  import opened Text

  const Backslash: char := '\\'

  /** The handler turns the text between the delimiters into its replacement. */
  type Handler = string -> string

  /** One stretch of the scanned text. */
  datatype Piece =
    | Plain(lo: nat, hi: nat)   // text[lo..hi], copied verbatim
    | EscapedOpen(at: nat)      // a backslash at at - 1 and `open` at `at`; emitted as `open` alone
    | Token(lo: nat, hi: nat)   // `open`, content text[lo..hi], `close`; emitted as handler(content)

  /** The source copies a negative number of characters and Java throws an
      IndexOutOfBoundsException; `count` is the negative length. */
  datatype ScanError = NegativeLength(count: int)

  /** `close` is consistent with an occurrence of `open` when placed `k` characters
      after the start of that occurrence: where the two overlap they agree. */
  predicate CloseFitsAt(open: string, close: string, k: nat)
  {
    forall m :: 0 <= m < |close| && k + m < |open| ==> open[k + m] == close[m]
  }

  /** Delimiters for which the source never copies a negative length: both non-empty,
      `close` cannot begin inside an occurrence of `open`, and neither ends in a
      backslash (so the character before a resumed offset is never a backslash). */
  predicate WellFormed(open: string, close: string)
  {
    && |open| > 0
    && |close| > 0
    && open[|open| - 1] != Backslash
    && close[|close| - 1] != Backslash
    && forall k :: 0 <= k < |open| ==> !CloseFitsAt(open, close, k)
  }

  /** What the loop of `parse` does next from `offset`. */
  datatype Step =
    | Finished                        // no further `open`: copy what is left
    | Escaped(start: nat)             // `open` at `start`, right after a backslash
    | Unterminated(start: nat)        // `open` at `start` with no `close` after it
    | Matched(start: nat, end: nat)   // `open` at `start`; the first `close` at or after `start` is at `end`

  function NextStep(text: string, open: string, close: string, offset: nat): (s: Step)
    requires |open| > 0 && offset <= |text|
    ensures s.Finished? <==> IndexOf(text, open, offset) == -1
    ensures !s.Finished? ==> s.start == IndexOf(text, open, offset) && OccursAt(text, open, s.start)
    ensures !s.Finished? ==> offset <= s.start && s.start + |open| <= |text|
    ensures s.Escaped? <==> !s.Finished? && s.start > 0 && text[s.start - 1] == Backslash
    ensures s.Unterminated? ==> IndexOf(text, close, s.start) == -1
    ensures s.Matched? ==> s.end == IndexOf(text, close, s.start) && OccursAt(text, close, s.end)
    ensures s.Matched? ==> s.start <= s.end && s.end + |close| <= |text|
  {
    var start := IndexOf(text, open, offset);
    if start == -1 then Finished
    else if start > 0 && text[start - 1] == Backslash then Escaped(start)
    else
      // the close delimiter is searched for from `start`, not from after `open`
      var end := IndexOf(text, close, start);
      if end == -1 then Unterminated(start) else Matched(start, end)
  }

  /** One pass of the loop body of `parse`. */
  datatype Pass =
    | Done(tail: seq<Piece>)                  // the loop ends; `tail` is copied after it
    | Stopped(error: ScanError)               // the pass throws
    | Emitted(pieces: seq<Piece>, next: nat)  // the pass appends `pieces` and resumes at `next`

  /** What one pass of the loop does from `offset`. Every pass that emits moves the
      offset forward, which is why the loop ends. */
  function Advance(text: string, open: string, close: string, offset: nat): (p: Pass)
    requires |open| > 0 && offset <= |text|
    ensures p.Emitted? ==> offset < p.next <= |text|
  {
    match NextStep(text, open, close, offset)
    case Finished =>
      Done(if offset < |text| then [Plain(offset, |text|)] else [])
    case Escaped(start) =>
      // `start - offset - 1` characters are copied: the backslash is dropped
      if start - offset - 1 < 0 then Stopped(NegativeLength(start - offset - 1))
      else Emitted([Plain(offset, start - 1), EscapedOpen(start)], start + |open|)
    case Unterminated(_) =>
      Emitted([Plain(offset, |text|)], |text|)
    case Matched(start, end) =>
      if end - (start + |open|) < 0 then Stopped(NegativeLength(end - (start + |open|)))
      else Emitted([Plain(offset, start), Token(start + |open|, end)], end + |close|)
  }

  function Prepend(ps: seq<Piece>, r: Result<seq<Piece>, ScanError>): Result<seq<Piece>, ScanError>
  {
    match r
    case Success(rest) => Success(ps + rest)
    case Failure(e) => Failure(e)
  }

  /** The pieces of `text[offset..]`, found exactly as the loop of `parse` finds them. */
  function Split(text: string, open: string, close: string, offset: nat): Result<seq<Piece>, ScanError>
    requires |open| > 0 && offset <= |text|
    decreases |text| - offset
  {
    match Advance(text, open, close, offset)
    case Done(tail) => Success(tail)
    case Stopped(e) => Failure(e)
    case Emitted(ps, next) => Prepend(ps, Split(text, open, close, next))
  }

  /** A null or empty text has no pieces at all. */
  function Scan(text: Option<string>, open: string, close: string): Result<seq<Piece>, ScanError>
    requires |open| > 0
  {
    match text
    case None => Success([])
    case Some(t) => if |t| == 0 then Success([]) else Split(t, open, close, 0)
  }

  /** `text[lo..hi]`, or nothing when the range does not lie in the text. */
  function Chars(text: string, lo: nat, hi: nat): string
  {
    if lo <= hi <= |text| then text[lo..hi] else []
  }

  function RenderPiece(text: string, p: Piece, open: string, handler: Handler): string
  {
    match p
    case Plain(lo, hi) => Chars(text, lo, hi)
    case EscapedOpen(_) => open
    case Token(lo, hi) => handler(Chars(text, lo, hi))
  }

  /** The output assembled from the pieces. */
  function Render(text: string, ps: seq<Piece>, open: string, handler: Handler): string
  {
    if |ps| == 0 then [] else RenderPiece(text, ps[0], open, handler) + Render(text, ps[1..], open, handler)
  }

  function RenderResult(text: string, r: Result<seq<Piece>, ScanError>, open: string, handler: Handler)
    : Result<string, ScanError>
  {
    match r
    case Success(ps) => Success(Render(text, ps, open, handler))
    case Failure(e) => Failure(e)
  }

  /** The arguments the handler receives, in the order it receives them. */
  function Tokens(text: string, ps: seq<Piece>): seq<string>
  {
    if |ps| == 0 then []
    else (if ps[0].Token? then [Chars(text, ps[0].lo, ps[0].hi)] else []) + Tokens(text, ps[1..])
  }

  /** `GenericTokenParser.parse`. A null text is `None`; the result is the rendering
      of the handler-free split, so handler output is never scanned again. */
  method Parse(text: Option<string>, open: string, close: string, handler: Handler)
    returns (r: Result<string, ScanError>)
    requires |open| > 0
    ensures r == RenderResult(text.GetOr([]), Scan(text, open, close), open, handler)
    ensures text.None? || text == Some([]) ==> r == Success([])
    ensures text.Some? && (forall i :: !OccursAt(text.value, open, i)) ==> r == Success(text.value)
    ensures WellFormed(open, close) ==> r.Success?
  {
    if text.None? || |text.value| == 0 {
      return Success([]);
    }
    var src := text.value;
    if WellFormed(open, close) {
      SplitSucceeds(src, open, close, 0);
    }
    r := ScanLoop(src, open, close, handler);
    if forall i :: !OccursAt(src, open, i) {
      assert Split(src, open, close, 0) == Success([Plain(0, |src|)]);
      RenderSingle(src, Plain(0, |src|), open, handler);
      assert src[0..|src|] == src;
    }
  }

  /** The offset loop of `parse`. */
  method ScanLoop(src: string, open: string, close: string, handler: Handler)
    returns (r: Result<string, ScanError>)
    requires |open| > 0
    ensures r == RenderResult(src, Split(src, open, close, 0), open, handler)
  {
    var builder: string := [];
    ghost var done: seq<Piece> := [];
    var offset: nat := 0;
    var start := IndexOf(src, open, offset);
    PrependNothing(Split(src, open, close, offset));
    while start > -1
      invariant offset <= |src|
      invariant start == IndexOf(src, open, offset)
      invariant Split(src, open, close, 0) == Prepend(done, Split(src, open, close, offset))
      invariant builder == Render(src, done, open, handler)
      decreases |src| - offset
    {
      var appended, next := ScanOne(src, open, close, handler, offset, start);
      if appended.Failure? {
        return Failure(appended.error);
      }
      ghost var pieces := Advance(src, open, close, offset).pieces;
      PrependTwice(done, pieces, Split(src, open, close, next));
      RenderAppend(src, done, pieces, open, handler);
      builder := builder + appended.value;
      done := done + pieces;
      offset := next;
      start := IndexOf(src, open, offset);
    }
    if offset < |src| {
      var pieces := [Plain(offset, |src|)];
      assert Split(src, open, close, offset) == Success(pieces);
      RenderRest(src, offset, open, handler);
      RenderAppend(src, done, pieces, open, handler);
      builder := builder + src[offset..|src|];
      done := done + pieces;
    } else {
      assert Split(src, open, close, offset) == Success([]);
      assert done + [] == done;
    }
    r := Success(builder);
  }

  /** One pass of the loop body of `parse`, for an occurrence of `open` at `start`: what it
      appends to the builder and the offset it moves to. */
  method ScanOne(src: string, open: string, close: string, handler: Handler, offset: nat, start: int)
    returns (appended: Result<string, ScanError>, next: nat)
    requires |open| > 0 && offset <= |src|
    requires start == IndexOf(src, open, offset) && start != -1
    ensures appended.Failure? <==> Advance(src, open, close, offset).Stopped?
    ensures appended.Failure? ==> appended.error == Advance(src, open, close, offset).error
    ensures appended.Success? ==> Advance(src, open, close, offset) == Emitted(Advance(src, open, close, offset).pieces, next)
    ensures appended.Success? ==> appended.value == Render(src, Advance(src, open, close, offset).pieces, open, handler)
  {
    if start > 0 && src[start - 1] == Backslash {
      // the open delimiter is escaped: drop the backslash, keep the delimiter
      assert NextStep(src, open, close, offset) == Escaped(start);
      if start - offset - 1 < 0 {
        return Failure(NegativeLength(start - offset - 1)), offset;
      }
      RenderEscape(src, offset, start, open, handler);
      appended := Success(src[offset..start - 1] + open);
      next := start + |open|;
    } else {
      appended, next := ScanToken(src, open, close, handler, offset, start);
    }
  }

  /** The loop body of `parse` for an occurrence of `open` at `start` that is not escaped:
      the text before it, then the handler's value for the content up to the first `close`. */
  method ScanToken(src: string, open: string, close: string, handler: Handler, offset: nat, start: int)
    returns (appended: Result<string, ScanError>, next: nat)
    requires |open| > 0 && offset <= |src|
    requires start == IndexOf(src, open, offset) && start != -1
    requires !(start > 0 && src[start - 1] == Backslash)
    ensures appended.Failure? <==> Advance(src, open, close, offset).Stopped?
    ensures appended.Failure? ==> appended.error == Advance(src, open, close, offset).error
    ensures appended.Success? ==> Advance(src, open, close, offset) == Emitted(Advance(src, open, close, offset).pieces, next)
    ensures appended.Success? ==> appended.value == Render(src, Advance(src, open, close, offset).pieces, open, handler)
  {
    // the close delimiter is searched for from `start`, not from after `open`
    var end := IndexOf(src, close, start);
    if end == -1 {
      assert NextStep(src, open, close, offset) == Unterminated(start);
      RenderRest(src, offset, open, handler);
      appended := Success(src[offset..|src|]);
      next := |src|;
    } else {
      assert NextStep(src, open, close, offset) == Matched(start, end);
      var prefix := src[offset..start];
      var contentStart := start + |open|;
      if end - contentStart < 0 {
        return Failure(NegativeLength(end - contentStart)), offset;
      }
      var content := src[contentStart..end];
      RenderToken(src, offset, start, contentStart, end, open, handler);
      appended := Success(prefix + handler(content));
      next := end + |close|;
    }
  }

  /** Emitting `ps` and then `qs` is emitting `ps + qs`. */
  lemma PrependTwice(ps: seq<Piece>, qs: seq<Piece>, r: Result<seq<Piece>, ScanError>)
    ensures Prepend(ps, Prepend(qs, r)) == Prepend(ps + qs, r)
  {
    if r.Success? {
      assert ps + (qs + r.value) == ps + qs + r.value;
    }
  }

  lemma PrependNothing(r: Result<seq<Piece>, ScanError>)
    ensures Prepend([], r) == r
  {
    if r.Success? {
      assert [] + r.value == r.value;
    }
  }

  lemma RenderSingle(text: string, p: Piece, open: string, handler: Handler)
    ensures Render(text, [p], open, handler) == RenderPiece(text, p, open, handler)
  {
    assert [p][1..] == [];
  }

  lemma RenderPair(text: string, p: Piece, q: Piece, open: string, handler: Handler)
    ensures Render(text, [p, q], open, handler)
         == RenderPiece(text, p, open, handler) + RenderPiece(text, q, open, handler)
  {
    assert [p, q][1..] == [q];
    RenderSingle(text, q, open, handler);
  }

  /** The text from `offset` to the end, as the only piece. */
  lemma RenderRest(text: string, offset: nat, open: string, handler: Handler)
    requires offset <= |text|
    ensures Render(text, [Plain(offset, |text|)], open, handler) == text[offset..|text|]
  {
    RenderSingle(text, Plain(offset, |text|), open, handler);
  }

  /** The text before an escaped open delimiter, less the backslash, then the delimiter. */
  lemma RenderEscape(text: string, offset: nat, start: nat, open: string, handler: Handler)
    requires offset + 1 <= start <= |text|
    ensures Render(text, [Plain(offset, start - 1), EscapedOpen(start)], open, handler)
         == text[offset..start - 1] + open
  {
    RenderPair(text, Plain(offset, start - 1), EscapedOpen(start), open, handler);
  }

  /** The text before a token, then the handler's value for its content. */
  lemma RenderToken(text: string, offset: nat, start: nat, lo: nat, hi: nat, open: string, handler: Handler)
    requires offset <= start <= lo <= hi <= |text|
    ensures Render(text, [Plain(offset, start), Token(lo, hi)], open, handler)
         == text[offset..start] + handler(text[lo..hi])
  {
    RenderPair(text, Plain(offset, start), Token(lo, hi), open, handler);
  }

  lemma {:induction false} RenderAppend(text: string, a: seq<Piece>, b: seq<Piece>, open: string, handler: Handler)
    ensures Render(text, a + b, open, handler) == Render(text, a, open, handler) + Render(text, b, open, handler)
    decreases |a|
  {
    if |a| == 0 {
      assert a + b == b;
    } else {
      assert (a + b)[0] == a[0];
      assert (a + b)[1..] == a[1..] + b;
      RenderAppend(text, a[1..], b, open, handler);
    }
  }

  /** With well-formed delimiters the first `close` at or after an unescaped `open`
      lies entirely after it, so the content length is never negative. */
  lemma CloseStartsAfterOpen(text: string, open: string, close: string, start: nat, end: nat)
    requires WellFormed(open, close)
    requires OccursAt(text, open, start) && OccursAt(text, close, end) && start <= end
    ensures start + |open| <= end
  {
    if end < start + |open| {
      var k: nat := end - start;
      OccursAtChars(text, open, start);
      OccursAtChars(text, close, end);
      forall m | 0 <= m < |close| && k + m < |open|
        ensures open[k + m] == close[m]
      {
        assert text[start + (k + m)] == open[k + m];
        assert text[end + m] == close[m];
      }
      assert CloseFitsAt(open, close, k);
      assert false;
    }
  }

  /** With well-formed delimiters a pass from an offset that does not follow a backslash
      never throws, and the next pass again starts after something other than a backslash. */
  lemma PassSucceeds(text: string, open: string, close: string, offset: nat)
    requires WellFormed(open, close) && offset <= |text|
    requires offset == 0 || text[offset - 1] != Backslash
    ensures !Advance(text, open, close, offset).Stopped?
    ensures var pass := Advance(text, open, close, offset);
            pass.Emitted? && pass.next < |text| ==> text[pass.next - 1] != Backslash
  {
    match NextStep(text, open, close, offset)
    case Finished =>
    case Escaped(start) =>
      OccursAtChar(text, open, start, |open| - 1);
    case Unterminated(_) =>
    case Matched(start, end) =>
      CloseStartsAfterOpen(text, open, close, start, end);
      OccursAtChar(text, close, end, |close| - 1);
  }

  /** Well-formed delimiters never make the scan fail. */
  lemma {:induction false} SplitSucceeds(text: string, open: string, close: string, offset: nat)
    requires WellFormed(open, close) && offset <= |text|
    requires offset == 0 || offset == |text| || text[offset - 1] != Backslash
    ensures Split(text, open, close, offset).Success?
    decreases |text| - offset
  {
    if offset == |text| {
      assert NextStep(text, open, close, offset) == Finished;
      return;
    }
    PassSucceeds(text, open, close, offset);
    var pass := Advance(text, open, close, offset);
    if pass.Emitted? {
      SplitSucceeds(text, open, close, pass.next);
    }
  }

  /** The handler is consulted on token contents only: two handlers that agree on
      every token produce the same output. */
  lemma {:induction false} RenderDependsOnlyOnTokens(text: string, ps: seq<Piece>, open: string, h1: Handler, h2: Handler)
    requires forall c :: c in Tokens(text, ps) ==> h1(c) == h2(c)
    ensures Render(text, ps, open, h1) == Render(text, ps, open, h2)
    decreases |ps|
  {
    if |ps| > 0 {
      assert Tokens(text, ps) == (if ps[0].Token? then [Chars(text, ps[0].lo, ps[0].hi)] else []) + Tokens(text, ps[1..]);
      RenderDependsOnlyOnTokens(text, ps[1..], open, h1, h2);
    }
  }
}

=== FILE: token_scanner_examples.dfy ===
/** Worked scans of small texts with the `${` and `}` delimiters of MyBatis property
    placeholders, as `parse` would produce them. */
module TokenScannerExamples {
  import opened Results
  import opened Text
  import opened TokenScanner

  /** A handler that shows where it was applied. */
  function Bracket(content: string): string
  {
    "[" + content + "]"
  }

  /** The backslash before an open delimiter is dropped and the delimiter is kept as text;
      nothing is passed to the handler. */
  lemma EscapedDelimiterIsKept()
    ensures RenderResult("a\\${b}c", Scan(Some("a\\${b}c"), "${", "}"), "${", Bracket) == Success("a${b}c")
  {
    var t := "a\\${b}c";
    assert !OccursAt(t, "${", 0) && !OccursAt(t, "${", 1) && OccursAt(t, "${", 2);
    assert NextStep(t, "${", "}", 0) == Escaped(2);
    assert forall i :: 4 <= i ==> !OccursAt(t, "${", i);
    assert Split(t, "${", "}", 4) == Success([Plain(4, 7)]);
    assert Advance(t, "${", "}", 0) == Emitted([Plain(0, 1), EscapedOpen(2)], 4);
    assert [Plain(0, 1), EscapedOpen(2)] + [Plain(4, 7)] == [Plain(0, 1), EscapedOpen(2), Plain(4, 7)];
    RenderAppend(t, [Plain(0, 1), EscapedOpen(2)], [Plain(4, 7)], "${", Bracket);
    RenderPair(t, Plain(0, 1), EscapedOpen(2), "${", Bracket);
    RenderSingle(t, Plain(4, 7), "${", Bracket);
    assert t[0..1] == "a" && t[4..7] == "b}c";
    assert "a" + "${" + "b}c" == "a${b}c";
  }

  /** Only the single character before the delimiter is looked at: an escaped backslash
      still escapes the delimiter, and one of the two backslashes is dropped. */
  lemma DoubleBackslashStillEscapes()
    ensures RenderResult("\\\\${a}", Scan(Some("\\\\${a}"), "${", "}"), "${", Bracket) == Success("\\${a}")
  {
    var t := "\\\\${a}";
    assert !OccursAt(t, "${", 0) && !OccursAt(t, "${", 1) && OccursAt(t, "${", 2);
    assert NextStep(t, "${", "}", 0) == Escaped(2);
    assert forall i :: 4 <= i ==> !OccursAt(t, "${", i);
    assert Split(t, "${", "}", 4) == Success([Plain(4, 6)]);
    assert Advance(t, "${", "}", 0) == Emitted([Plain(0, 1), EscapedOpen(2)], 4);
    assert [Plain(0, 1), EscapedOpen(2)] + [Plain(4, 6)] == [Plain(0, 1), EscapedOpen(2), Plain(4, 6)];
    RenderAppend(t, [Plain(0, 1), EscapedOpen(2)], [Plain(4, 6)], "${", Bracket);
    RenderPair(t, Plain(0, 1), EscapedOpen(2), "${", Bracket);
    RenderSingle(t, Plain(4, 6), "${", Bracket);
    assert t[0..1] == "\\" && t[4..6] == "a}";
    assert "\\" + "${" + "a}" == "\\${a}";
  }

  /** Tokens do not nest: the content runs to the first close delimiter, even past a
      second open delimiter, and what follows is copied. */
  lemma FirstCloseEndsToken()
    ensures RenderResult("${a${b}c}", Scan(Some("${a${b}c}"), "${", "}"), "${", Bracket) == Success("[a${b]c}")
  {
    var t := "${a${b}c}";
    assert OccursAt(t, "${", 0);
    assert forall i :: 0 <= i < 6 ==> !OccursAt(t, "}", i);
    assert OccursAt(t, "}", 6);
    assert NextStep(t, "${", "}", 0) == Matched(0, 6);
    assert forall i :: 7 <= i ==> !OccursAt(t, "${", i);
    assert Split(t, "${", "}", 7) == Success([Plain(7, 9)]);
    assert Advance(t, "${", "}", 0) == Emitted([Plain(0, 0), Token(2, 6)], 7);
    assert [Plain(0, 0), Token(2, 6)] + [Plain(7, 9)] == [Plain(0, 0), Token(2, 6), Plain(7, 9)];
    RenderAppend(t, [Plain(0, 0), Token(2, 6)], [Plain(7, 9)], "${", Bracket);
    RenderPair(t, Plain(0, 0), Token(2, 6), "${", Bracket);
    RenderSingle(t, Plain(7, 9), "${", Bracket);
    assert t[0..0] == "" && t[2..6] == "a${b" && t[7..9] == "c}";
    assert "" + Bracket("a${b") + "c}" == "[a${b]c}";
  }

  /** An open delimiter without a close delimiter after it: the text is copied unchanged. */
  lemma UnterminatedIsCopied()
    ensures RenderResult("x${y", Scan(Some("x${y"), "${", "}"), "${", Bracket) == Success("x${y")
  {
    var t := "x${y";
    assert !OccursAt(t, "${", 0) && OccursAt(t, "${", 1);
    assert forall i :: 1 <= i ==> !OccursAt(t, "}", i);
    assert NextStep(t, "${", "}", 0) == Unterminated(1);
    assert NextStep(t, "${", "}", |t|) == Finished;
    assert [Plain(0, 4)] + [] == [Plain(0, 4)];
    RenderSingle(t, Plain(0, 4), "${", Bracket);
    assert t[0..4] == t;
  }

  /** A handler whose output for `a` is itself a token, `${b}`, and whose output for `b` is `X`. */
  function Chain(content: string): string
  {
    if content == "a" then "${b}" else if content == "b" then "X" else content
  }

  /** What the handler returns is copied, not scanned again: `${a}` becomes `${b}`, where a
      parser that rescanned its output would go on to `X`. */
  lemma HandlerOutputNotRescanned()
    ensures RenderResult("${a}", Scan(Some("${a}"), "${", "}"), "${", Chain) == Success("${b}")
  {
    var t := "${a}";
    assert OccursAt(t, "${", 0);
    assert forall i :: 0 <= i < 3 ==> !OccursAt(t, "}", i);
    assert OccursAt(t, "}", 3);
    assert NextStep(t, "${", "}", 0) == Matched(0, 3);
    assert NextStep(t, "${", "}", 4) == Finished;
    assert Split(t, "${", "}", 4) == Success([]);
    assert Advance(t, "${", "}", 0) == Emitted([Plain(0, 0), Token(2, 3)], 4);
    assert [Plain(0, 0), Token(2, 3)] + [] == [Plain(0, 0), Token(2, 3)];
    RenderPair(t, Plain(0, 0), Token(2, 3), "${", Chain);
    assert t[0..0] == "" && t[2..3] == "a";
    assert "" + Chain("a") == "${b}";
  }

  /** MyBatis's own delimiters are well formed, so `SplitSucceeds` and
      `FixedAgreesWhenSourceSucceeds` apply to them: the code and the corrected scan agree. */
  lemma MyBatisDelimitersWellFormed()
    ensures WellFormed("${", "}") && WellFormed("#{", "}")
  {
  }

  /** An `open` that starts inside a `close` is passed over: with `$` and `}$`, the `$` at
      index 3 ends the token's `close`, and the scan resumes at index 4. */
  lemma OpenInsideCloseIsPassedOver()
    ensures OccursAt("$a}$b}$", "$", 3)
    ensures Split("$a}$b}$", "$", "}$", 0) == Success([Plain(0, 0), Token(1, 2), Plain(4, 7)])
  {
    var t := "$a}$b}$";
    assert OccursAt(t, "$", 0);
    assert OccursAt(t, "}$", 2);
    assert forall i :: 0 <= i < 2 ==> !OccursAt(t, "}$", i);
    assert NextStep(t, "$", "}$", 0) == Matched(0, 2);
    assert Advance(t, "$", "}$", 0) == Emitted([Plain(0, 0), Token(1, 2)], 4);
    assert !OccursAt(t, "$", 4) && !OccursAt(t, "$", 5) && OccursAt(t, "$", 6);
    assert forall i :: 6 <= i ==> !OccursAt(t, "}$", i);
    assert NextStep(t, "$", "}$", 4) == Unterminated(6);
    assert Advance(t, "$", "}$", 4) == Emitted([Plain(4, 7)], 7);
    assert NextStep(t, "$", "}$", 7) == Finished;
    assert Split(t, "$", "}$", 7) == Success([]);
    assert [Plain(4, 7)] + [] == [Plain(4, 7)];
    assert [Plain(0, 0), Token(1, 2)] + [Plain(4, 7)] == [Plain(0, 0), Token(1, 2), Plain(4, 7)];
  }
}

=== FILE: token_scanner_fix.dfy ===
/** The scan with the close delimiter searched for after the open delimiter, as the
    loop evidently intends: the content of a token starts after `open`, so a `close` that
    starts inside `open` cannot end it. */
module TokenScannerFix {
  import opened Results
  import opened Text
  import opened TokenScanner

  /** `NextStep`, except that `close` is searched for from the end of `open`. */
  function NextStepFixed(text: string, open: string, close: string, offset: nat): (s: Step)
    requires |open| > 0 && offset <= |text|
    ensures s.Finished? <==> IndexOf(text, open, offset) == -1
    ensures !s.Finished? ==> s.start == IndexOf(text, open, offset) && offset <= s.start && s.start + |open| <= |text|
    ensures s.Escaped? <==> !s.Finished? && s.start > 0 && text[s.start - 1] == Backslash
    ensures s.Unterminated? ==> IndexOf(text, close, s.start + |open|) == -1
    ensures s.Matched? ==> s.end == IndexOf(text, close, s.start + |open|) && OccursAt(text, close, s.end)
    ensures s.Matched? ==> s.start + |open| <= s.end && s.end + |close| <= |text|
  {
    var start := IndexOf(text, open, offset);
    if start == -1 then Finished
    else if start > 0 && text[start - 1] == Backslash then Escaped(start)
    else
      var end := IndexOf(text, close, start + |open|);
      if end == -1 then Unterminated(start) else Matched(start, end)
  }

  /** `Advance` over `NextStepFixed`: a token's content length is never negative. */
  function AdvanceFixed(text: string, open: string, close: string, offset: nat): (p: Pass)
    requires |open| > 0 && offset <= |text|
    ensures p.Emitted? ==> offset < p.next <= |text|
  {
    match NextStepFixed(text, open, close, offset)
    case Finished =>
      Done(if offset < |text| then [Plain(offset, |text|)] else [])
    case Escaped(start) =>
      if start - offset - 1 < 0 then Stopped(NegativeLength(start - offset - 1))
      else Emitted([Plain(offset, start - 1), EscapedOpen(start)], start + |open|)
    case Unterminated(_) =>
      Emitted([Plain(offset, |text|)], |text|)
    case Matched(start, end) =>
      Emitted([Plain(offset, start), Token(start + |open|, end)], end + |close|)
  }

  function SplitFixed(text: string, open: string, close: string, offset: nat): Result<seq<Piece>, ScanError>
    requires |open| > 0 && offset <= |text|
    decreases |text| - offset
  {
    match AdvanceFixed(text, open, close, offset)
    case Done(tail) => Success(tail)
    case Stopped(e) => Failure(e)
    case Emitted(ps, next) => Prepend(ps, SplitFixed(text, open, close, next))
  }

  /** Delimiters for which the corrected scan never fails: `open` non-empty, and neither
      delimiter ending in a backslash. No condition relates `close` to `open`. */
  predicate FixedWellFormed(open: string, close: string)
  {
    && |open| > 0
    && open[|open| - 1] != Backslash
    && (|close| == 0 || close[|close| - 1] != Backslash)
  }

  /** A pass of the corrected scan from an offset that does not follow a backslash never
      throws, and leaves the next pass in the same situation. */
  lemma FixedPassSucceeds(text: string, open: string, close: string, offset: nat)
    requires FixedWellFormed(open, close) && offset <= |text|
    requires offset == 0 || text[offset - 1] != Backslash
    ensures !AdvanceFixed(text, open, close, offset).Stopped?
    ensures var pass := AdvanceFixed(text, open, close, offset);
            pass.Emitted? && pass.next < |text| ==> text[pass.next - 1] != Backslash
  {
    match NextStepFixed(text, open, close, offset)
    case Finished =>
    case Escaped(start) =>
      OccursAtChar(text, open, start, |open| - 1);
    case Unterminated(_) =>
    case Matched(start, end) =>
      if |close| == 0 {
        OccursAtChar(text, open, start, |open| - 1);
      } else {
        OccursAtChar(text, close, end, |close| - 1);
      }
  }

  /** The corrected scan fails for no text unless a delimiter ends in a backslash. */
  lemma {:induction false} SplitFixedSucceeds(text: string, open: string, close: string, offset: nat)
    requires FixedWellFormed(open, close) && offset <= |text|
    requires offset == 0 || offset == |text| || text[offset - 1] != Backslash
    ensures SplitFixed(text, open, close, offset).Success?
    decreases |text| - offset
  {
    if offset == |text| {
      assert NextStepFixed(text, open, close, offset) == Finished;
      return;
    }
    FixedPassSucceeds(text, open, close, offset);
    var pass := AdvanceFixed(text, open, close, offset);
    if pass.Emitted? {
      SplitFixedSucceeds(text, open, close, pass.next);
    }
  }

  /** A successful pass of the source is also a pass of the corrected scan. */
  lemma PassAgrees(text: string, open: string, close: string, offset: nat)
    requires |open| > 0 && offset <= |text|
    requires !Advance(text, open, close, offset).Stopped?
    ensures AdvanceFixed(text, open, close, offset) == Advance(text, open, close, offset)
  {
    match NextStep(text, open, close, offset)
    case Finished =>
    case Escaped(_) =>
    case Unterminated(start) =>
      IndexOfLater(text, close, start, start + |open|);
    case Matched(start, end) =>
      IndexOfLater(text, close, start, start + |open|);
  }

  /** Wherever the source's scan succeeds, the correction changes nothing. */
  lemma {:induction false} FixedAgreesWhenSourceSucceeds(text: string, open: string, close: string, offset: nat)
    requires |open| > 0 && offset <= |text|
    requires Split(text, open, close, offset).Success?
    ensures SplitFixed(text, open, close, offset) == Split(text, open, close, offset)
    decreases |text| - offset
  {
    PassAgrees(text, open, close, offset);
    var pass := Advance(text, open, close, offset);
    if pass.Emitted? {
      FixedAgreesWhenSourceSucceeds(text, open, close, pass.next);
    }
  }

  /** The source fails where `close` can start inside `open`: with `<%` and `%>` the text
      `<%>` has its first `%>` at index 1, one character before the content would begin,
      and the source copies -1 characters. The corrected scan copies the text unchanged. */
  lemma OverlappingCloseFails()
    ensures Split("<%>", "<%", "%>", 0) == Failure(NegativeLength(-1))
    ensures SplitFixed("<%>", "<%", "%>", 0) == Success([Plain(0, 3)])
  {
    var t := "<%>";
    assert OccursAt(t, "<%", 0) && !OccursAt(t, "%>", 0) && OccursAt(t, "%>", 1);
    assert NextStep(t, "<%", "%>", 0) == Matched(0, 1);
    assert forall i :: 2 <= i ==> !OccursAt(t, "%>", i);
    assert NextStepFixed(t, "<%", "%>", 0) == Unterminated(0);
    assert NextStepFixed(t, "<%", "%>", 3) == Finished;
    assert [Plain(0, 3)] + [] == [Plain(0, 3)];
  }

  /** The source fails whenever `open` and `close` are the same string: with `$` for both,
      the text `$a$` has its first `$` at the open delimiter itself and the source copies -1
      characters. The corrected scan finds the token `a`. */
  lemma SameDelimiterFails()
    ensures Split("$a$", "$", "$", 0) == Failure(NegativeLength(-1))
    ensures SplitFixed("$a$", "$", "$", 0) == Success([Plain(0, 0), Token(1, 2)])
  {
    var t := "$a$";
    assert OccursAt(t, "$", 0) && !OccursAt(t, "$", 1) && OccursAt(t, "$", 2);
    assert NextStep(t, "$", "$", 0) == Matched(0, 0);
    assert NextStepFixed(t, "$", "$", 0) == Matched(0, 2);
    assert NextStepFixed(t, "$", "$", 3) == Finished;
    assert [Plain(0, 0), Token(1, 2)] + [] == [Plain(0, 0), Token(1, 2)];
  }
}

=== FILE: token_scanner_properties.dfy ===
/** What the pieces of a successful scan say about the text they came from. */
module TokenScannerProperties {
  import opened Results
  import opened Text
  import opened TokenScanner

  /** Where a piece begins in the text: an escaped delimiter at its backslash, a token at its
      open delimiter. */
  function PieceStart(p: Piece, open: string): int
  {
    match p
    case Plain(lo, _) => lo
    case EscapedOpen(at) => at - 1
    case Token(lo, _) => lo - |open|
  }

  /** Where a piece ends in the text: a token after its close delimiter. */
  function PieceEnd(p: Piece, open: string, close: string): int
  {
    match p
    case Plain(_, hi) => hi
    case EscapedOpen(at) => at + |open|
    case Token(_, hi) => hi + |close|
  }

  /** The pieces lie side by side, in order, and cover `text[from..to]` exactly. */
  predicate Tiles(ps: seq<Piece>, open: string, close: string, from: int, to: int)
    decreases |ps|
  {
    if |ps| == 0 then from == to
    else PieceStart(ps[0], open) == from && Tiles(ps[1..], open, close, PieceEnd(ps[0], open, close), to)
  }

  /** What the text holds where a piece was found. No `open` starts inside copied text, unless
      it is the rest of the text from an `open` with no `close` after it. An `open` that begins
      inside a `close` or an escaped `open` is not copied text and is passed over. A token is an unescaped
      `open`, then its content, then the first `close` at or after the start of that `open`. */
  predicate PieceValid(text: string, p: Piece, open: string, close: string)
  {
    match p
    case Plain(lo, hi) =>
      && lo <= hi <= |text|
      && ((forall i :: lo <= i < hi ==> !OccursAt(text, open, i))
          || (hi == |text| && |open| > 0 && NextStep(text, open, close, lo).Unterminated?))
    case EscapedOpen(at) => 0 < at && OccursAt(text, open, at) && text[at - 1] == Backslash
    case Token(lo, hi) =>
      && |open| <= lo <= hi
      && OccursAt(text, open, lo - |open|)
      && (lo - |open| == 0 || text[lo - |open| - 1] != Backslash)
      && OccursAt(text, close, hi)
      && forall i :: lo - |open| <= i < hi ==> !OccursAt(text, close, i)
  }

  predicate AllValid(text: string, ps: seq<Piece>, open: string, close: string)
  {
    forall k :: 0 <= k < |ps| ==> PieceValid(text, ps[k], open, close)
  }

  /** One pass emits valid pieces that tile the text from `offset` to where the next pass
      starts, or to the end when the loop stops there. */
  lemma PassShape(text: string, open: string, close: string, offset: nat)
    requires |open| > 0 && offset <= |text|
    ensures var pass := Advance(text, open, close, offset);
            pass.Done? ==> Tiles(pass.tail, open, close, offset, |text|) && AllValid(text, pass.tail, open, close)
    ensures var pass := Advance(text, open, close, offset);
            pass.Emitted? ==> Tiles(pass.pieces, open, close, offset, pass.next) && AllValid(text, pass.pieces, open, close)
  {
    match NextStep(text, open, close, offset)
    case Finished =>
      if offset < |text| {
        assert [Plain(offset, |text|)][1..] == [];
      }
    case Escaped(start) =>
      var ps := [Plain(offset, start - 1), EscapedOpen(start)];
      assert ps[1..][1..] == [];
    case Unterminated(_) =>
      assert [Plain(offset, |text|)][1..] == [];
    case Matched(start, end) =>
      var ps := [Plain(offset, start), Token(start + |open|, end)];
      assert ps[1..][1..] == [];
  }

  lemma {:induction false} TilesConcat(a: seq<Piece>, b: seq<Piece>, open: string, close: string, from: int, mid: int, to: int)
    requires Tiles(a, open, close, from, mid) && Tiles(b, open, close, mid, to)
    ensures Tiles(a + b, open, close, from, to)
    decreases |a|
  {
    if |a| == 0 {
      assert a + b == b;
    } else {
      assert (a + b)[1..] == a[1..] + b;
      TilesConcat(a[1..], b, open, close, PieceEnd(a[0], open, close), mid, to);
    }
  }

  lemma AllValidConcat(text: string, a: seq<Piece>, b: seq<Piece>, open: string, close: string)
    requires AllValid(text, a, open, close) && AllValid(text, b, open, close)
    ensures AllValid(text, a + b, open, close)
  {
    forall k | 0 <= k < |a + b|
      ensures PieceValid(text, (a + b)[k], open, close)
    {
      if k < |a| {
        assert (a + b)[k] == a[k];
      } else {
        assert (a + b)[k] == b[k - |a|];
      }
    }
  }

  /** The pieces of a successful scan tile the text from `offset` to its end, and each of
      them is what the text holds there. */
  lemma {:induction false} SplitShape(text: string, open: string, close: string, offset: nat)
    requires |open| > 0 && offset <= |text|
    requires Split(text, open, close, offset).Success?
    ensures Tiles(Split(text, open, close, offset).value, open, close, offset, |text|)
    ensures AllValid(text, Split(text, open, close, offset).value, open, close)
    decreases |text| - offset
  {
    PassShape(text, open, close, offset);
    var pass := Advance(text, open, close, offset);
    if pass.Emitted? {
      SplitShape(text, open, close, pass.next);
      var rest := Split(text, open, close, pass.next).value;
      TilesConcat(pass.pieces, rest, open, close, offset, pass.next, |text|);
      AllValidConcat(text, pass.pieces, rest, open, close);
    }
  }

  /** A valid piece does not end before it starts. */
  lemma PieceForward(text: string, p: Piece, open: string, close: string)
    requires PieceValid(text, p, open, close)
    ensures PieceStart(p, open) <= PieceEnd(p, open, close)
  {
  }

  /** Tiled valid pieces appear in text order: each ends no later than any later one starts. */
  lemma {:induction false} TilesOrdered(text: string, ps: seq<Piece>, open: string, close: string, from: int, to: int)
    requires Tiles(ps, open, close, from, to) && AllValid(text, ps, open, close)
    ensures forall k :: 0 <= k < |ps| ==> from <= PieceStart(ps[k], open)
    ensures forall i, j :: 0 <= i < j < |ps| ==> PieceEnd(ps[i], open, close) <= PieceStart(ps[j], open)
    decreases |ps|
  {
    if |ps| > 0 {
      var tail := ps[1..];
      PieceForward(text, ps[0], open, close);
      assert AllValid(text, tail, open, close) by {
        forall k | 0 <= k < |tail|
          ensures PieceValid(text, tail[k], open, close)
        {
          assert tail[k] == ps[k + 1];
        }
      }
      TilesOrdered(text, tail, open, close, PieceEnd(ps[0], open, close), to);
      forall k | 0 < k < |ps|
        ensures PieceEnd(ps[0], open, close) <= PieceStart(ps[k], open)
      {
        assert ps[k] == tail[k - 1];
      }
      forall i, j | 0 <= i < j < |ps|
        ensures PieceEnd(ps[i], open, close) <= PieceStart(ps[j], open)
      {
        if 0 < i {
          assert ps[i] == tail[i - 1] && ps[j] == tail[j - 1];
        }
      }
    }
  }

  /** The handler sees the token contents left to right: of two tokens of a successful scan,
      the earlier one's content ends before the later one's begins. */
  lemma TokensInTextOrder(text: string, open: string, close: string, i: nat, j: nat)
    requires |open| > 0
    requires Split(text, open, close, 0).Success?
    requires var ps := Split(text, open, close, 0).value;
             i < j < |ps| && ps[i].Token? && ps[j].Token?
    ensures var ps := Split(text, open, close, 0).value;
            ps[i].hi < ps[j].lo
  {
    var ps := Split(text, open, close, 0).value;
    SplitShape(text, open, close, 0);
    TilesOrdered(text, ps, open, close, 0, |text|);
    assert PieceEnd(ps[i], open, close) <= PieceStart(ps[j], open);
  }

  /** Each token of a successful scan is an unescaped `open`, its content, and the first
      `close` at or after the start of that `open`, so a nested `open` in the content does
      not extend the token. */
  lemma TokenFacts(text: string, open: string, close: string, k: nat)
    requires |open| > 0
    requires Split(text, open, close, 0).Success?
    requires var ps := Split(text, open, close, 0).value;
             k < |ps| && ps[k].Token?
    ensures var t := Split(text, open, close, 0).value[k];
            && |open| <= t.lo <= t.hi
            && t.hi + |close| <= |text|
            && text[t.lo - |open|..t.lo] == open
            && text[t.hi..t.hi + |close|] == close
            && (t.lo - |open| == 0 || text[t.lo - |open| - 1] != Backslash)
            && forall i :: t.lo - |open| <= i < t.hi ==> !OccursAt(text, close, i)
  {
    SplitShape(text, open, close, 0);
    TokenSlices(text, Split(text, open, close, 0).value[k], open, close);
  }

  lemma TokenSlices(text: string, t: Piece, open: string, close: string)
    requires t.Token? && PieceValid(text, t, open, close)
    ensures t.hi + |close| <= |text|
    ensures text[t.lo - |open|..t.lo] == open && text[t.hi..t.hi + |close|] == close
  {
    OccursAtSlice(text, open, t.lo - |open|);
    OccursAtSlice(text, close, t.hi);
  }

  /** Each escaped delimiter of a successful scan stands right after a backslash, so the
      first character of the text is never escaped. */
  lemma EscapeFacts(text: string, open: string, close: string, k: nat)
    requires |open| > 0
    requires Split(text, open, close, 0).Success?
    requires var ps := Split(text, open, close, 0).value;
             k < |ps| && ps[k].EscapedOpen?
    ensures var e := Split(text, open, close, 0).value[k];
            && 0 < e.at
            && e.at + |open| <= |text|
            && text[e.at - 1] == Backslash
            && text[e.at..e.at + |open|] == open
  {
    var e := Split(text, open, close, 0).value[k];
    SplitShape(text, open, close, 0);
    assert PieceValid(text, e, open, close);
    OccursAtSlice(text, open, e.at);
  }

  /** An `open` with no `close` after it: the scan copies the rest of the text verbatim. */
  lemma UnterminatedCopiesRest(text: string, open: string, close: string, offset: nat, handler: Handler)
    requires |open| > 0 && offset <= |text|
    requires NextStep(text, open, close, offset).Unterminated?
    ensures Split(text, open, close, offset) == Success([Plain(offset, |text|)])
    ensures RenderResult(text, Split(text, open, close, offset), open, handler) == Success(text[offset..])
  {
    assert NextStep(text, open, close, |text|) == Finished;
    assert [Plain(offset, |text|)] + [] == [Plain(offset, |text|)];
    RenderRest(text, offset, open, handler);
    assert text[offset..|text|] == text[offset..];
  }
}
